=== FILE: README.md ===
# Storage helpers of firecam, modelled in Dafny

This project models the storage-path and listing core of `firecam/lib/goog_helper.py`. The code
sits between the firecam tools and two remote services:

- Google Cloud Storage, reached through `gs://bucket/name` paths.
- Google Drive, reached through folder ids and `files.list` queries.

The model has one module per concern:

| module | file | models |
|---|---|---|
| `Types` | `types.dfy` | `Option` and `Result` |
| `Strings` | `strings.dfy` | the Python idioms the helpers use: `startswith`, `s[-1]`, `split('/')[-1]`, `os.path.join`, `PurePath(...).name`, `str.join` |
| `GcsPath` | `gcs_path.dfy` | `parseGCSPath`, `repackGCSPath` |
| `Retry` | `retry.dfy` | the bounded retry loop that `createFolder`, `driveListFilesQueryWithNextToken` and `uploadFile` each write out |
| `DriveQuery` | `drive_query.dfy` | the Drive query strings |
| `Drive` | `drive.dfy` | `createFolder`, `uploadFile`, the list helpers, `searchFiles`, `getDirForClassCamera`, `downloadFile` |
| `Paging` | `paging.dfy` | `searchAllFiles` |
| `Bucket` | `bucket.dfy` | `firstItem`, `listBucketEntries` |
| `BucketSync` | `bucket_sync.dfy` | `downloadBucketFile`, `downloadBucketDir` |
| `FileOps` | `file_ops.dfy` | `copyFile`, `dateSubDir` |

The remote services are parameters of the model.

- **Drive backends.** A Drive backend is a function from the request sent to the outcome of each of
  the five attempts the retry loop may make. An outcome is `Some(reply)` or `None`, and `None`
  stands for a raised exception.
- **Bucket.** A bucket is its object names in listing order.
- **Local file system.** The local file system is a set of file paths and a set of directory paths.
- **Falsy strings.** Python's falsy `None`/`''` arguments are the empty string.
- **Page tokens.** Page tokens are `Option<string>`. A token is truthy when it is present and
  non-empty.

Each operation is a pure function, except `searchAllFiles`. That one is a method with a loop, given
the finite list of pages the backend will produce.

Two behaviours of the code are worth stating plainly, because the model keeps them:

- **Failed pagination.** The list helper returns `None` after five failures, and `searchAllFiles`
  then raises while unpacking that `None` into `(items, nextPageToken)`. There is no partial
  result: `Paging.SearchAllFiles` returns `Err(UnpackedNone)` and no items.
- **Bucket calls are not retried.** `listBucketEntries`, `downloadBucketFile` and the other bucket
  helpers call the client directly, without the retry loop the Drive helpers use. The model has
  no retry around them either.

## Model

| member | source | states |
|---|---|---|
| Strings.DropTrailingSlash | firecam/lib/goog_helper.py:416-417 | a trailing `/` is removed (the string is the result plus that `/`), and a string without one is unchanged |
| Strings.LastSegment | firecam/lib/goog_helper.py:575 | the result has no `/`, is a suffix of the input, and is preceded by a `/` when shorter than the input |
| Strings.PathJoin | firecam/lib/goog_helper.py:576 | an absolute name replaces the directory; a `/`-free name follows the directory with exactly one `/` between them (none added when the directory is empty or ends in `/`), so it is the last segment |
| Strings.PureName | firecam/lib/goog_helper.py:632 | the file name has no `/` and is never `.`; a plain name is its own file name |
| Strings.PureNameOfNothing | firecam/lib/goog_helper.py:632 | the empty path, `.` and `/` have the empty file name |
| Strings.PureNameOfChild | firecam/lib/goog_helper.py:632 | a `/`-free last component other than `.` is the file name of the path |
| Strings.PureNameSkipsEmpty | firecam/lib/goog_helper.py:632 | a trailing `/` does not change the file name |
| Strings.PureNameSkipsDot | firecam/lib/goog_helper.py:632 | a trailing `.` component does not change the file name |
| Strings.PureNameChars | firecam/lib/goog_helper.py:632 | a character absent from the path is absent from its file name (so a newline-free path gives a newline-free name) |
| GcsPath.ParseGCSPath | firecam/lib/goog_helper.py:403-422 | a parse succeeds only for `gs://` paths; the bucket is a non-empty name over `[a-z0-9_.-]` (so without `/`); the name has no newline |
| GcsPath.ParseComplete | firecam/lib/goog_helper.py:403-422 | every string the pattern matches, including one with a single final newline, parses to its bucket and its name less one trailing `/` |
| GcsPath.ParseSound | firecam/lib/goog_helper.py:413-422 | every successful parse comes from a string the pattern matches, with the same bucket and a name differing by at most one dropped `/` |
| GcsPath.ParseRejects | firecam/lib/goog_helper.py:413-422 | the parse is `None` exactly when no bucket and name make the pattern match |
| GcsPath.RepackGCSPath | firecam/lib/goog_helper.py:425-435 | the path starts with `gs://`, followed by exactly the bucket, one `/` and the name |
| GcsPath.RepackThenParse | firecam/lib/goog_helper.py:403-435 | round trip: repacking a valid bucket and a non-empty, newline-free name without trailing `/`, then parsing, gives them back |
| GcsPath.TrailingSlashDropped | firecam/lib/goog_helper.py:416-421 | a name repacked with one trailing `/` parses back without it |
| GcsPath.ParseThenRepack | firecam/lib/goog_helper.py:403-435 | round trip: a parsed path with no trailing `/` or newline repacks to the same string |
| Retry.RetryLoop | firecam/lib/goog_helper.py:126-139 | from any point of the loop, the run obeys the reference behaviour: earlier attempts failed, the last returned or was the fifth failure, and one sleep separates attempts |
| Retry.Retried | firecam/lib/goog_helper.py:126-140 | the whole loop obeys the reference behaviour, with at most five calls and at most four sleeps |
| Retry.ObeysDetermines | firecam/lib/goog_helper.py:126-140 | the reference behaviour admits only one run for given per-attempt outcomes |
| Retry.FirstSuccessWins | firecam/lib/goog_helper.py:126-134 | the first successful attempt ends the loop: its value is returned after k+1 calls and k sleeps |
| Retry.AlwaysFailing | firecam/lib/goog_helper.py:126-140 | a call that always raises is invoked five times with four sleeps and yields `None` |
| Retry.NoneOnlyAfterFiveFailures | firecam/lib/goog_helper.py:126-140 | `None` is returned only when all five attempts raised |
| Retry.SucceedsOnThirdAttempt | firecam/lib/goog_helper.py:126-139 | two failures then a success return that value after three calls and two sleeps |
| Retry.SleepTimeBounded | firecam/lib/goog_helper.py:135-137 | the time slept never exceeds four five-second delays |
| Drive.CreateFolder | firecam/lib/goog_helper.py:110-140 | the folder request (name, folder mime type, parent) runs under the retry loop's reference behaviour |
| Drive.UploadFile | firecam/lib/goog_helper.py:295-322 | the upload request (base name of the path, parent, `image/jpeg` media) runs under the retry loop's reference behaviour |
| DriveQuery.ListQuery | firecam/lib/goog_helper.py:168-170 | the query starts with the parent/trash clause and equals it exactly when the custom query is falsy; otherwise ` and ` and the custom query follow it |
| DriveQuery.CustomClauseRoundTrip | firecam/lib/goog_helper.py:168-170 | the custom clause can be recovered from the query, so building the query loses nothing |
| Drive.ListFilesWithNextToken | firecam/lib/goog_helper.py:155-191 | one page is fetched with the built query and the given token under the retry loop's reference behaviour |
| Drive.ListFiles | firecam/lib/goog_helper.py:194-197 | it fails exactly when all five attempts without a token raised; otherwise it returns the items of the first successful attempt |
| DriveQuery.NameFilter | firecam/lib/goog_helper.py:202-205 | there is no clause exactly when the name is falsy; otherwise the clause is `name = '`, the searched name, then `'` |
| DriveQuery.NameFilterRoundTrip | firecam/lib/goog_helper.py:202-205 | the searched name is recovered from its clause, so different names give different clauses |
| Drive.ListFilesByName | firecam/lib/goog_helper.py:200-206 | a truthy name lists with the `name = '...'` clause; a falsy one lists without a custom clause |
| DriveQuery.SearchConstraints | firecam/lib/goog_helper.py:224-230 | one non-empty clause per truthy filter, in the order minTime, maxTime, name-contains |
| DriveQuery.SearchClause | firecam/lib/goog_helper.py:224-231 | the joined clause is empty exactly when no filter is given |
| Strings.JoinWith | firecam/lib/goog_helper.py:231 | joining no parts gives the empty string and one part gives that part |
| Strings.JoinWithAppend | firecam/lib/goog_helper.py:231 | joining two non-empty lists of parts is the join of the first, the separator, then the join of the second, so every join is its parts with one separator between each two |
| Strings.JoinWithTwo | firecam/lib/goog_helper.py:231 | two parts are joined with exactly one separator between them |
| Strings.JoinWithEnds | firecam/lib/goog_helper.py:231 | a join ends with the last part, and with several parts starts with the first part followed by the separator |
| DriveQuery.JoinNonEmpty | firecam/lib/goog_helper.py:231 | joining non-empty clauses gives the empty string only for an empty list |
| DriveQuery.UnfilteredSearchIsBase | firecam/lib/goog_helper.py:224-238 | with no filters the search query is exactly the parent/trash clause |
| DriveQuery.TwoFilterSearchClause | firecam/lib/goog_helper.py:224-231 | with exactly two filters set, the clause is their two constraints in source order joined by one ` and ` |
| DriveQuery.FullSearchQuery | firecam/lib/goog_helper.py:224-231 | with every filter the query is the base, then the min-time, max-time and name clauses joined by ` and ` |
| Drive.SentToken | firecam/lib/goog_helper.py:233-235 | no token is sent exactly when the requested token is absent or `'init'`; any other token is sent unchanged |
| Drive.SearchFiles | firecam/lib/goog_helper.py:209-238 | it pages (returning the page or `None`) exactly when the token is truthy, sending `'init'` as no token; otherwise it returns the bare first-page list or fails with it |
| Paging.FlattenAppend | firecam/lib/goog_helper.py:241-248 | accumulating items distributes over concatenation of page lists |
| Paging.FlattenMembers | firecam/lib/goog_helper.py:241-248 | an item is in the accumulated result exactly when some page holds it |
| Paging.SearchAllFiles | firecam/lib/goog_helper.py:241-248 | the first fetch sends no token and each later one the previous page's token; on a complete conversation it returns all pages' items in order; if a fetch gives up it fails with no partial result |
| Drive.GetDirForClassCamera | firecam/lib/goog_helper.py:325-346 | an unknown class is a missing key and a failed search passes its error on; it succeeds exactly when the name search returns one folder, and then returns that folder's id and name; any other count is reported with that count |
| Drive.DownloadFile | firecam/lib/goog_helper.py:274-292 | a failed search passes its error on; it proceeds exactly when the search found at least one file and uses the first; zero matches exit with status 1; it warns exactly when there were several |
| Drive.SeveralMatches | firecam/lib/goog_helper.py:283-346 | with two matches the camera-folder lookup raises while the download carries on with the first and warns |
| Drive.OneMatch | firecam/lib/goog_helper.py:283-346 | with one match both helpers use that item |
| Drive.NoMatch | firecam/lib/goog_helper.py:283-346 | with no match the lookup raises and the download exits with status 1 |
| Bucket.FirstItem | firecam/lib/goog_helper.py:465-467 | nothing exactly for an empty sequence, otherwise its first element |
| Bucket.FilesAt | firecam/lib/goog_helper.py:485-491 | the delimited listing holds exactly the objects under the prefix with no further `/` |
| Bucket.DeepFiles | firecam/lib/goog_helper.py:485-491 | the undelimited listing holds exactly the objects under the prefix |
| Bucket.Groups | firecam/lib/goog_helper.py:486-489 | the group prefixes are duplicate-free; each belongs to some nested object and each nested object's group is present; each is the prefix, one more segment and `/` |
| Bucket.ListBucketEntries | firecam/lib/goog_helper.py:470-491 | asking for directories of a deep listing is an error; directories are the group prefixes without their trailing `/`, position by position; files are as the chosen listing gives them |
| Bucket.DirsAreOneLevelDown | firecam/lib/goog_helper.py:487-489 | every reported directory is the prefix plus one `/`-free segment and has an object below it |
| BucketSync.ExtendsChain | firecam/lib/goog_helper.py:559-583 | two runs in a row still only add their downloads, never overwrite and never download a path twice |
| BucketSync.DownloadBucketFile | firecam/lib/goog_helper.py:521-533 | nothing is fetched exactly when a file exists at the local path; otherwise exactly that object is fetched to that path |
| BucketSync.MakeDirs | firecam/lib/goog_helper.py:567-568 | afterwards the path exists; only it may be added as a directory, and no file changes |
| BucketSync.DownloadFiles | firecam/lib/goog_helper.py:573-577 | the file loop only adds downloaded files, never overwrites one and fetches no path twice |
| BucketSync.DownloadFilesCovers | firecam/lib/goog_helper.py:573-577 | after the file loop every listed object has a file at the directory joined with its last segment, and no other file is new |
| BucketSync.LevelPathsHas | firecam/lib/goog_helper.py:573-577 | every listed object's target (the directory joined with its last segment) is among the paths the file loop writes |
| BucketSync.LevelPathsFrom | firecam/lib/goog_helper.py:573-577 | every path the file loop writes is the target of some listed object |
| BucketSync.DownloadFilesFetches | firecam/lib/goog_helper.py:573-577 | the file loop fetches only listed objects, each to the directory joined with its last segment |
| BucketSync.Subcalls | firecam/lib/goog_helper.py:579-583 | corrected recursion: one call per listed group, each on a strictly longer prefix of the directory, mirrored at the local path joined with the subdirectory's name |
| BucketSync.SubTargets | firecam/lib/goog_helper.py:579-583 | the mirror paths of the objects below a subdirectory, taken from that subdirectory at its local path, are exactly the parent's mirror paths of the objects in that group |
| BucketSync.TargetsSplit | firecam/lib/goog_helper.py:573-583 | the mirror paths of a directory are exactly the file loop's paths plus the shares of the subdirectories it recurses into |
| BucketSync.Mirror | firecam/lib/goog_helper.py:559-583 | a run over a normalised directory only adds downloaded files, never overwrites one and fetches no path twice |
| BucketSync.MirrorCovers | firecam/lib/goog_helper.py:559-583 | the mirror adds exactly the mirror path of every object below the directory to the local files |
| BucketSync.MirrorFetches | firecam/lib/goog_helper.py:559-583 | the mirror fetches only objects below the directory, each to its mirror path |
| BucketSync.NormalizeDir | firecam/lib/goog_helper.py:569-571 | the directory ends in `/` and differs from the argument by at most that added `/` |
| BucketSync.DownloadBucketDir | firecam/lib/goog_helper.py:559-583 | an empty local path is an error (the directory cannot be made), then an empty directory id, then a local path that is a file while some object lies below the directory; otherwise every object below the normalised directory ends up at its mirror path, only such objects are fetched, and existing files are kept |
| BucketSync.RerunFetchesNothing | firecam/lib/goog_helper.py:529-530 | mirroring again over the result fetches nothing and changes no file |
| BucketSync.AsWrittenSubcalls | firecam/lib/goog_helper.py:579-583 | as written: one call per listed directory, on the group prefix without its `/`, at the local path joined with that directory's last segment |
| BucketSync.AsWrittenAgreesOnNamedDirs | firecam/lib/goog_helper.py:569-583 | where the subdirectory name is non-empty, the as-written call normalises to the corrected one and uses the same local path |
| BucketSync.AsWrittenRevisits | firecam/lib/goog_helper.py:569-583 | where the subdirectory name is empty, the as-written call is on the directory itself again |
| BucketSync.EmptySegmentLoops | firecam/lib/goog_helper.py:569-583 | for the object `a//b`, the as-written download of `a/` at `L/` calls itself with the same arguments |
| FileOps.ObjectUnder | firecam/lib/goog_helper.py:634-637 | the object name is the directory name without a trailing `/`, then exactly one `/`, then the file name |
| FileOps.CopyFile | firecam/lib/goog_helper.py:622-645 | a remote source is rejected and an empty destination object name raises. A bucket destination is uploaded under the directory name, one `/` and the source's file name, and that object's `gs://` path is returned. A local destination returns exactly the destination directory joined with the file name, creating the directory only when missing |
| FileOps.CopyToBucketParsesBack | firecam/lib/goog_helper.py:629-639 | the returned bucket path parses back to the destination bucket, with a name under the destination directory whose last segment is the source's file name |
| FileOps.DateSubDir | firecam/lib/goog_helper.py:586-600 | an empty parent raises; otherwise the result starts with the parent, is the parent without a trailing `/`, then one `/`, then the date, and its last segment is the date |

## Left out

- Drive.UploadFile: the local file is assumed readable. In the source `MediaFileUpload` opens it
  before the retry loop, so a missing or unreadable file raises out of `uploadFile` with no attempt
  made and no retry; the model always runs the retry loop.
- Credentials, service construction, the ID-token fetch and client caching are not modelled. They
  are foreign library calls and process-global state.
- Byte transfer, Sheets reads, Pub/Sub publishing, `deleteItem`, `listBuckets`, `getBucketFile`,
  `readBucketFile`, `uploadBucketFile`, `deleteBucketFile` and `readFile` are not modelled. They are
  single calls into client libraries. What they do is kept only as the abstract effects the modelled
  helpers produce: a `Fetch` record, a `CopyAction`, a `DownloadPlan`.
- `downloadClassImage` is not modelled. It parses the file name with `img_archive`, which is not part
  of this model. Its two steps, `getDirForClassCamera` and `downloadFile`, are modelled.
- `time.sleep`, logging and `print` are not modelled as effects. Sleeps are counted in
  `Retry.Run.sleeps`. The warning `downloadFile` prints is the `warned` flag.
- The clock is a parameter. `FileOps.DateSubDir` takes the formatted date string instead of reading
  the time.
- Drive replies are reduced to the `id` and `name` of each item and the `nextPageToken`. A reply
  without `files` counts as an empty page.
- `Bucket.Groups` returns the group prefixes in order of first appearance. The client library
  collects `blobs.prefixes` in a set, so the source's order is unspecified. The mirror's results are
  sets, so nothing downstream depends on that order.
- The Cloud Storage listing is modelled as one complete page. The source reads `prefixes` after
  `firstItem` has run the iterator only until the first object arrives, so `prefixes` holds what
  the pages read up to that point delivered. Listings whose groups arrive on later pages are not
  modelled.
- BucketSync.Mirror: an object whose name equals the directory prefix (a placeholder such as `a/`)
  is listed as a file with an empty last segment. The model records a fetch to the local directory
  path. The source would fail writing a file over that directory.
- BucketSync.Mirror: a bucket object and a local directory that share a path are not distinguished
  beyond `os.path.isfile`. `os.makedirs` creating parent directories is reduced to adding the one
  path.
- BucketSync.DownloadBucketDir: with an empty `dirID`, the source has already created the local
  directory when `dirID[-1]` raises. The model returns `Err(EmptyDirID)` with no local effect.
- BucketSync.DownloadBucketDir: local file-system failures are modelled only at the top level: an
  empty local path (`os.makedirs('')` raises) and a local path that is a file while something
  below the directory would be written under it. A conflict deeper down (a nested local path
  that is already a file, a target path that is already a directory), permissions and a full disk
  are not modelled, and the coverage stated by `BucketSync.MirrorCovers` assumes none occurs.
- BucketSync.MakeDirs: `os.makedirs` is taken to succeed whenever nothing exists at the path. Its
  failure on the empty path is caught by `BucketSync.DownloadBucketDir` before it is reached; its
  failure below an existing file is not modelled.
- FileOps.CopyFile: the local copy is an action, and the model does not track the local file set
  for it. The destination path on POSIX is modelled, and `pathlib.PurePath` is taken in its POSIX
  flavour.
- BucketSync.DownloadBucketFile: local paths are compared as strings, without normalisation. Paths
  that name the same file through `.`, `..` or a doubled `/` (`x/./b` and `x/b`) count as different
  files, where the source's `os.path.isfile` would find the existing file and skip the download.
- BucketSync.DownloadBucketDir: every Cloud Storage call (`list_blobs`, `download_to_filename`) is
  assumed to succeed. In the source an exception from either propagates out of `downloadBucketDir`,
  which has no handler, and the rest of the sync is abandoned. The coverage stated by
  `BucketSync.MirrorCovers` and `BucketSync.DownloadBucketDir` holds only for a run in which no call
  raises.
- GcsPath.RepackThenParse: the round trip is stated for names without a newline and without a
  trailing `/`, because the pattern's `.` does not match a newline and the parse drops one trailing
  `/`. `GcsPath.TrailingSlashDropped` covers the trailing `/` case.

## Findings

| source | as written | input that shows it | evidently intended | confidence | as-written member | corrected member |
|---|---|---|---|---|---|---|
| firecam/lib/goog_helper.py:579-583 | each subdirectory is recursed into via its listed prefix with the trailing `/` removed, which the recursive call adds back | an object named `a//b` and `downloadBucketDir(bucket, 'a/', 'L/')`: the delimited listing reports the group `a//`, trimmed to `a/`, so the call repeats itself with `('a/', 'L/')` and never returns | recurse on the listed group prefix itself, which is strictly longer than the directory, so every call goes one level deeper | medium (depends on the service reporting the empty segment's group as `a//`); not executed | BucketSync.AsWrittenSubcalls (with BucketSync.AsWrittenRevisits, BucketSync.EmptySegmentLoops) | BucketSync.Subcalls (used by BucketSync.Mirror; BucketSync.MirrorCovers, BucketSync.DownloadBucketDir) |

=== FILE: bucket.dfy ===
/**
 * Cloud Storage listings (`listBucketEntries`) over a bucket given as its object names in
 * listing order. With the `/` delimiter, names directly under the prefix are files and every
 * deeper name contributes its first-level group prefix (`prefix + segment + "/"`) once; with no
 * delimiter (`deep`) every name under the prefix is a file.
 */
module Bucket {
  import opened Types
  import opened Strings

  /** `firstItem`: the first element an iterable yields, `None` for an empty one. */
  function FirstItem<T>(s: seq<T>): (r: Option<T>)
    ensures r.None? <==> |s| == 0
    ensures r.Some? ==> r.value == s[0]
  {
    if |s| == 0 then None else Some(s[0])
  }

  /** An object directly under `prefix`: no `/` after it. */
  predicate IsFileAt(key: string, prefix: string) {
    HasPrefix(key, prefix) && '/' !in key[|prefix|..]
  }

  /** An object further down: a `/` follows somewhere after `prefix`. */
  predicate IsNestedUnder(key: string, prefix: string) {
    HasPrefix(key, prefix) && '/' in key[|prefix|..]
  }

  /** The text between `prefix` and the next `/` of a nested object. */
  function SegmentAfter(key: string, prefix: string): (seg: string)
    requires IsNestedUnder(key, prefix)
    ensures '/' !in seg
    ensures HasPrefix(key, prefix + seg + "/")
  {
    var rest := key[|prefix|..];
    var i := IndexOf(rest, '/').value;
    assert key[..|prefix| + i + 1] == prefix + rest[..i] + "/";
    rest[..i]
  }

  /** The group prefix the delimiter listing reports for a nested object. */
  function GroupOf(key: string, prefix: string): (g: string)
    requires IsNestedUnder(key, prefix)
    ensures HasPrefix(key, g) && HasPrefix(g, prefix) && |g| > |prefix| && EndsWith(g, '/')
  {
    prefix + SegmentAfter(key, prefix) + "/"
  }

  /** An upper bound on the length of every name in `keys`: the measure that makes the mirror's recursion end. */
  function MaxLen(keys: seq<string>): (m: nat)
    ensures forall k :: k in keys ==> |k| <= m
  {
    if |keys| == 0 then 0
    else
      var m := MaxLen(keys[1..]);
      if |keys[0]| > m then |keys[0]| else m
  }

  /** The files a delimited listing returns, in listing order. */
  function FilesAt(keys: seq<string>, prefix: string): (r: seq<string>)
    ensures forall k :: k in r <==> k in keys && IsFileAt(k, prefix)
    ensures |r| <= |keys|
  {
    if |keys| == 0 then []
    else (if IsFileAt(keys[0], prefix) then [keys[0]] else []) + FilesAt(keys[1..], prefix)
  }

  /** The files an undelimited (`deep`) listing returns: every object under the prefix, in listing order. */
  function DeepFiles(keys: seq<string>, prefix: string): (r: seq<string>)
    ensures forall k :: k in r <==> k in keys && HasPrefix(k, prefix)
    ensures |r| <= |keys|
  {
    if |keys| == 0 then []
    else (if HasPrefix(keys[0], prefix) then [keys[0]] else []) + DeepFiles(keys[1..], prefix)
  }

  /** `blobs.prefixes`: each nested object's group once, in order of first appearance. */
  function Groups(keys: seq<string>, prefix: string): (r: seq<string>)
    ensures forall g :: g in r ==> exists k :: k in keys && IsNestedUnder(k, prefix) && g == GroupOf(k, prefix)
    ensures forall k :: k in keys && IsNestedUnder(k, prefix) ==> GroupOf(k, prefix) in r
    ensures forall i, j :: 0 <= i < j < |r| ==> r[i] != r[j]
    ensures forall g :: g in r ==> HasPrefix(g, prefix) && |g| > |prefix| && EndsWith(g, '/')
    decreases |keys|
  {
    if |keys| == 0 then []
    else
      var init := keys[..|keys| - 1];
      var last := keys[|keys| - 1];
      var gs := Groups(init, prefix);
      assert keys == init + [last];
      if IsNestedUnder(last, prefix) && GroupOf(last, prefix) !in gs then gs + [GroupOf(last, prefix)]
      else gs
  }

  /** `listBucketEntries` asserts against asking for directories of a deep listing. */
  datatype ListError = DirsOfDeepListing

  /**
   * `listBucketEntries`: directories (group prefixes without their trailing `/`) when `getDirs`,
   * otherwise the object names of a delimited or, with `deep`, undelimited listing.
   */
  function ListBucketEntries(keys: seq<string>, prefix: string, getDirs: bool, deep: bool): (r: Result<seq<string>, ListError>)
    ensures r.Err? <==> getDirs && deep
    ensures r.Ok? && getDirs ==> |r.value| == |Groups(keys, prefix)|
    ensures r.Ok? && getDirs ==> forall i :: 0 <= i < |r.value| ==> r.value[i] + "/" == Groups(keys, prefix)[i]
    ensures r.Ok? && !getDirs && !deep ==> forall k :: k in r.value <==> k in keys && IsFileAt(k, prefix)
    ensures r.Ok? && !getDirs && deep ==> forall k :: k in r.value <==> k in keys && HasPrefix(k, prefix)
  {
    if getDirs && deep then Err(DirsOfDeepListing)
    else if getDirs then
      var gs := Groups(keys, prefix);
      var dirs := seq(|gs|, i requires 0 <= i < |gs| => gs[i][..|gs[i]| - 1]);
      assert forall i :: 0 <= i < |gs| ==> dirs[i] + "/" == gs[i];
      Ok(dirs)
    else if deep then Ok(DeepFiles(keys, prefix))
    else Ok(FilesAt(keys, prefix))
  }

  /** Every directory reported has the prefix, one more segment, and a nested object under it. */
  lemma DirsAreOneLevelDown(keys: seq<string>, prefix: string, d: string)
    requires d in ListBucketEntries(keys, prefix, true, false).value
    ensures HasPrefix(d, prefix) && '/' !in d[|prefix|..]
    ensures exists k :: k in keys && HasPrefix(k, d + "/")
  {
    var dirs := ListBucketEntries(keys, prefix, true, false).value;
    var i :| 0 <= i < |dirs| && dirs[i] == d;
    var g := Groups(keys, prefix)[i];
    assert g in Groups(keys, prefix);
    var k :| k in keys && IsNestedUnder(k, prefix) && g == GroupOf(k, prefix);
    var seg := SegmentAfter(k, prefix);
    assert d + "/" == prefix + seg + "/";
    assert d == prefix + seg;
    assert d[..|prefix|] == prefix;
    assert d[|prefix|..] == seg;
  }
}

=== FILE: bucket_sync.dfy ===
/**
 * Mirroring a bucket directory onto the local file system (`downloadBucketFile`,
 * `downloadBucketDir`). The local side is the set of existing file paths and the set of existing
 * directories; a run reports the downloads it made, in order, as `Fetch` records.
 */
module BucketSync {
  import opened Types
  import opened Strings
  import opened Bucket

  /** The paths that exist locally as files and as directories. */
  datatype Local = Local(files: set<string>, dirs: set<string>)

  /** One `download_to_filename`: bucket object `key` written to local `path`. */
  datatype Fetch = Fetch(key: string, path: string)

  /** The local state after a run, with the downloads the run made. */
  datatype Sync = Sync(local: Local, fetched: seq<Fetch>)

  /** `downloadBucketDir` indexes `dirID[-1]` before anything else looks at it. */
  datatype SyncError =
    | EmptyLocalPath   // the local directory cannot be created under the empty name
    | EmptyDirID       // the directory id has no last character to test for `/`
    | LocalPathIsFile  // the local directory is a file, so nothing can be written below it

  function Paths(fetched: seq<Fetch>): set<string> {
    set x | x in fetched :: x.path
  }

  /**
   * What every run guarantees: the new files are exactly the downloaded paths, no download
   * overwrote a file that was there before, no path was downloaded twice, and no directory vanished.
   */
  predicate Extends(before: Local, r: Sync) {
    && r.local.files == before.files + Paths(r.fetched)
    && before.dirs <= r.local.dirs
    && (forall x :: x in r.fetched ==> x.path !in before.files)
    && (forall i, j :: 0 <= i < j < |r.fetched| ==> r.fetched[i].path != r.fetched[j].path)
  }

  /** Two runs in a row extend the starting state by both runs' downloads. */
  lemma ExtendsChain(a: Local, s1: Sync, s2: Sync)
    requires Extends(a, s1) && Extends(s1.local, s2)
    ensures Extends(a, Sync(s2.local, s1.fetched + s2.fetched))
  {
    var all := s1.fetched + s2.fetched;
    assert Paths(all) == Paths(s1.fetched) + Paths(s2.fetched) by {
      forall p ensures p in Paths(all) <==> p in Paths(s1.fetched) + Paths(s2.fetched) {
        if p in Paths(all) {
          var x :| x in all && x.path == p;
        }
        if p in Paths(s1.fetched) {
          var x :| x in s1.fetched && x.path == p;
          assert x in all;
        }
        if p in Paths(s2.fetched) {
          var x :| x in s2.fetched && x.path == p;
          assert x in all;
        }
      }
    }
    forall i, j | 0 <= i < j < |all|
      ensures all[i].path != all[j].path
    {
      if j < |s1.fetched| {
      } else if i >= |s1.fetched| {
        assert all[i] == s2.fetched[i - |s1.fetched|];
        assert all[j] == s2.fetched[j - |s1.fetched|];
      } else {
        assert all[i] in s1.fetched;
        assert all[j] in s2.fetched;
      }
    }
  }

  /** `downloadBucketFile`: downloads unless a file already exists at the local path. */
  function DownloadBucketFile(local: Local, key: string, path: string): (r: Sync)
    ensures Extends(local, r)
    ensures path in local.files <==> r.fetched == []
    ensures path !in local.files ==> r.fetched == [Fetch(key, path)]
    ensures r.local.files == local.files + {path}
    ensures r.local.dirs == local.dirs
  {
    if path in local.files then
      assert local.files + {path} == local.files;
      Sync(local, [])
    else
      var r := Sync(local.(files := local.files + {path}), [Fetch(key, path)]);
      assert Paths(r.fetched) == {path};
      r
  }

  /** `os.makedirs` when nothing exists at the path yet. */
  function MakeDirs(local: Local, path: string): (r: Local)
    ensures r.files == local.files
    ensures path in r.files || path in r.dirs
    ensures local.dirs <= r.dirs <= local.dirs + {path}
  {
    if path in local.files || path in local.dirs then local
    else local.(dirs := local.dirs + {path})
  }

  /** The local paths the file loop of `downloadBucketDir` targets: the last segment of each name under `L`. */
  function LevelPaths(files: seq<string>, L: string): set<string>
    decreases |files|
  {
    if |files| == 0 then {} else {PathJoin(L, LastSegment(files[0]))} + LevelPaths(files[1..], L)
  }

  /** Every listed name has its target among the level paths. */
  lemma {:induction false} LevelPathsHas(files: seq<string>, L: string, f: string)
    requires f in files
    ensures PathJoin(L, LastSegment(f)) in LevelPaths(files, L)
    decreases |files|
  {
    if f != files[0] {
      assert f in files[1..];
      LevelPathsHas(files[1..], L, f);
    }
  }

  /** Every level path is the target of some listed name, returned as `f`. */
  lemma {:induction false} LevelPathsFrom(files: seq<string>, L: string, p: string) returns (f: string)
    requires p in LevelPaths(files, L)
    ensures f in files && p == PathJoin(L, LastSegment(f))
    decreases |files|
  {
    assert |files| > 0;
    var head := PathJoin(L, LastSegment(files[0]));
    assert LevelPaths(files, L) == {head} + LevelPaths(files[1..], L);
    if p == head {
      f := files[0];
    } else {
      assert p in LevelPaths(files[1..], L);
      f := LevelPathsFrom(files[1..], L, p);
      assert f in files;
    }
  }

  /** The file loop of `downloadBucketDir`: each listed object to `L` joined with its last segment. */
  function DownloadFiles(local: Local, files: seq<string>, L: string): (r: Sync)
    ensures Extends(local, r)
    ensures r.local.dirs == local.dirs
    decreases |files|
  {
    if |files| == 0 then Sync(local, [])
    else
      var f := files[0];
      var first := DownloadBucketFile(local, f, PathJoin(L, LastSegment(f)));
      var rest := DownloadFiles(first.local, files[1..], L);
      ExtendsChain(local, first, rest);
      Sync(rest.local, first.fetched + rest.fetched)
  }

  /** After the file loop every listed object has a file at its target path, and nothing else is new. */
  lemma {:induction false} DownloadFilesCovers(local: Local, files: seq<string>, L: string)
    ensures DownloadFiles(local, files, L).local.files == local.files + LevelPaths(files, L)
    decreases |files|
  {
    if |files| > 0 {
      var f := files[0];
      var p := PathJoin(L, LastSegment(f));
      var first := DownloadBucketFile(local, f, p);
      var rest := DownloadFiles(first.local, files[1..], L);
      assert DownloadFiles(local, files, L).local == rest.local;
      assert first.local.files == local.files + {p};
      assert LevelPaths(files, L) == {p} + LevelPaths(files[1..], L);
      DownloadFilesCovers(first.local, files[1..], L);
      AddInTurn(local.files, first.local.files, rest.local.files, {p}, LevelPaths(files[1..], L));
    }
  }

  /** The file loop fetches only listed objects, each to its target path. */
  lemma {:induction false} DownloadFilesFetches(local: Local, files: seq<string>, L: string)
    ensures forall x :: x in DownloadFiles(local, files, L).fetched ==> x.key in files && x.path == PathJoin(L, LastSegment(x.key))
    decreases |files|
  {
    if |files| > 0 {
      var f := files[0];
      var first := DownloadBucketFile(local, f, PathJoin(L, LastSegment(f)));
      DownloadFilesFetches(first.local, files[1..], L);
      assert forall g :: g in files[1..] ==> g in files;
    }
  }

  /** The name of the subdirectory a group prefix `g` of `d` stands for: the text between them. */
  function SubdirName(d: string, g: string): (s: string)
    requires HasPrefix(g, d) && |g| > |d|
    ensures d + s + "/" == g || !EndsWith(g, '/')
  {
    g[|d|..|g| - 1]
  }

  /** A group of `d` is strictly longer than `d` and no longer than the longest object name. */
  lemma GroupWithinKeys(keys: seq<string>, d: string, g: string)
    requires g in Groups(keys, d)
    ensures |d| < |g| <= MaxLen(keys)
  {
    var k :| k in keys && IsNestedUnder(k, d) && g == GroupOf(k, d);
  }

  /**
   * The recursive calls of a corrected `downloadBucketDir` from directory `d` mirrored at `L`:
   * each group prefix as listed, with its trailing `/` kept, mirrored at `L` joined with the
   * subdirectory name. Each call is strictly deeper than `d`.
   */
  function Subcalls(keys: seq<string>, d: string, L: string): (r: seq<(string, string)>)
    requires EndsWith(d, '/')
    ensures |r| == |Groups(keys, d)|
    ensures forall i :: 0 <= i < |r| ==> r[i].0 == Groups(keys, d)[i]
    ensures forall c :: c in r ==>
      c.0 in Groups(keys, d) && HasPrefix(c.0, d) && |c.0| > |d| && EndsWith(c.0, '/') && c.1 == PathJoin(L, SubdirName(d, c.0))
  {
    var gs := Groups(keys, d);
    seq(|gs|, i requires 0 <= i < |gs| => (gs[i], PathJoin(L, SubdirName(d, gs[i]))))
  }

  /** `downloadBucketDir` after `dirID` has been given its trailing `/`, with the corrected recursion. */
  function Mirror(keys: seq<string>, d: string, L: string, local: Local): (r: Sync)
    requires EndsWith(d, '/')
    ensures Extends(local, r)
    decreases MaxLen(keys) - |d|, 1, 0
  {
    var made := MakeDirs(local, L);
    var files := DownloadFiles(made, FilesAt(keys, d), L);
    var subs := MirrorEach(keys, d, Subcalls(keys, d, L), files.local);
    ExtendsChain(local, files, subs);
    Sync(subs.local, files.fetched + subs.fetched)
  }

  /** The directory loop: each subcall in turn, threading the local state. */
  function MirrorEach(keys: seq<string>, d: string, calls: seq<(string, string)>, local: Local): (r: Sync)
    requires forall c :: c in calls ==> c.0 in Groups(keys, d) && EndsWith(c.0, '/')
    ensures Extends(local, r)
    decreases MaxLen(keys) - |d|, 0, |calls|
  {
    if |calls| == 0 then Sync(local, [])
    else
      GroupWithinKeys(keys, d, calls[0].0);
      var first := Mirror(keys, calls[0].0, calls[0].1, local);
      var rest := MirrorEach(keys, d, calls[1..], first.local);
      ExtendsChain(local, first, rest);
      Sync(rest.local, first.fetched + rest.fetched)
  }

  /** Where a mirror of a directory at `L` puts the object at relative name `rel`: one local directory per `/`-separated segment. */
  function MirrorPath(L: string, rel: string): string
    decreases |rel|
  {
    match IndexOf(rel, '/')
    case None => PathJoin(L, rel)
    case Some(i) => MirrorPath(PathJoin(L, rel[..i]), rel[i + 1..])
  }

  /** Every local path a complete mirror of bucket directory `d` at `L` holds. */
  function Targets(keys: seq<string>, d: string, L: string): set<string> {
    set k | k in keys && HasPrefix(k, d) :: MirrorPath(L, k[|d|..])
  }

  /** The targets of the objects below `d` whose group is one of `dirs`. */
  function GroupTargets(keys: seq<string>, d: string, L: string, dirs: set<string>): set<string> {
    set k | k in keys && IsNestedUnder(k, d) && GroupOf(k, d) in dirs :: MirrorPath(L, k[|d|..])
  }

  function CallDirs(calls: seq<(string, string)>): set<string> {
    set c | c in calls :: c.0
  }

  /** An object directly in `d` goes to `L` joined with its last segment. */
  lemma LevelFilePath(k: string, d: string, L: string)
    requires EndsWith(d, '/') && IsFileAt(k, d)
    ensures MirrorPath(L, k[|d|..]) == PathJoin(L, LastSegment(k))
  {
    var rel := k[|d|..];
    assert k == d + rel;
    LastSegmentOfJoin(d, rel);
  }

  /** An object below group `g` of `d` goes where the mirror of `g` puts it. */
  lemma NestedPath(k: string, d: string, L: string)
    requires IsNestedUnder(k, d)
    ensures HasPrefix(k, GroupOf(k, d))
    ensures MirrorPath(L, k[|d|..]) == MirrorPath(PathJoin(L, SubdirName(d, GroupOf(k, d))), k[|GroupOf(k, d)|..])
  {
    var rel := k[|d|..];
    var i := IndexOf(rel, '/').value;
    var seg := SegmentAfter(k, d);
    assert seg == rel[..i];
    var g := GroupOf(k, d);
    assert g == d + seg + "/";
    assert SubdirName(d, g) == seg;
    assert k[|g|..] == rel[i + 1..];
    assert MirrorPath(L, rel) == MirrorPath(PathJoin(L, rel[..i]), rel[i + 1..]);
  }

  /** A name that continues `d` with a `/`-free segment and a `/` has that segment as its first below `d`. */
  lemma SegmentOfPrefixed(k: string, d: string, seg: string)
    requires '/' !in seg && HasPrefix(k, d + seg + "/")
    ensures IsNestedUnder(k, d) && SegmentAfter(k, d) == seg
  {
    var rel := k[|d|..];
    assert k[..|d|] == (d + seg + "/")[..|d|] == d;
    assert rel[..|seg|] == seg;
    assert rel[|seg|] == '/';
    assert '/' in rel;
    var j := IndexOf(rel, '/').value;
  }

  /** An object lies below a group of `d` exactly when that group is its own. */
  lemma UnderGroup(keys: seq<string>, d: string, g: string, k: string)
    requires g in Groups(keys, d)
    ensures HasPrefix(k, g) <==> IsNestedUnder(k, d) && GroupOf(k, d) == g
  {
    var k0 :| k0 in keys && IsNestedUnder(k0, d) && g == GroupOf(k0, d);
    var seg := SegmentAfter(k0, d);
    assert g == d + seg + "/";
    if HasPrefix(k, g) {
      SegmentOfPrefixed(k, d, seg);
    }
  }

  lemma SubTargetOf(keys: seq<string>, d: string, g: string, L: string, p: string)
    requires g in Groups(keys, d)
    requires HasPrefix(g, d) && |g| > |d|
    requires p in Targets(keys, g, PathJoin(L, SubdirName(d, g)))
    ensures p in GroupTargets(keys, d, L, {g})
  {
    var k :| k in keys && HasPrefix(k, g) && p == MirrorPath(PathJoin(L, SubdirName(d, g)), k[|g|..]);
    UnderGroup(keys, d, g, k);
    NestedPath(k, d, L);
  }

  lemma GroupTargetOf(keys: seq<string>, d: string, g: string, L: string, p: string)
    requires g in Groups(keys, d)
    requires HasPrefix(g, d) && |g| > |d|
    requires p in GroupTargets(keys, d, L, {g})
    ensures p in Targets(keys, g, PathJoin(L, SubdirName(d, g)))
  {
    var k :| k in keys && IsNestedUnder(k, d) && GroupOf(k, d) in {g} && p == MirrorPath(L, k[|d|..]);
    NestedPath(k, d, L);
  }

  lemma SubTargetsWithin(keys: seq<string>, d: string, g: string, L: string)
    requires g in Groups(keys, d)
    ensures HasPrefix(g, d) && |g| > |d|
    ensures Targets(keys, g, PathJoin(L, SubdirName(d, g))) <= GroupTargets(keys, d, L, {g})
  {
    forall p | p in Targets(keys, g, PathJoin(L, SubdirName(d, g)))
      ensures p in GroupTargets(keys, d, L, {g})
    {
      SubTargetOf(keys, d, g, L, p);
    }
    GroupWithinKeys(keys, d, g);
  }

  lemma SubTargetsReach(keys: seq<string>, d: string, g: string, L: string)
    requires g in Groups(keys, d)
    ensures HasPrefix(g, d) && |g| > |d|
    ensures GroupTargets(keys, d, L, {g}) <= Targets(keys, g, PathJoin(L, SubdirName(d, g)))
  {
    forall p | p in GroupTargets(keys, d, L, {g})
      ensures p in Targets(keys, g, PathJoin(L, SubdirName(d, g)))
    {
      GroupTargetOf(keys, d, g, L, p);
    }
    GroupWithinKeys(keys, d, g);
  }

  /** The mirror of a group holds exactly that group's share of the parent's targets. */
  lemma SubTargets(keys: seq<string>, d: string, g: string, L: string)
    requires g in Groups(keys, d)
    ensures HasPrefix(g, d) && |g| > |d|
    ensures Targets(keys, g, PathJoin(L, SubdirName(d, g))) == GroupTargets(keys, d, L, {g})
  {
    SubTargetsWithin(keys, d, g, L);
    SubTargetsReach(keys, d, g, L);
  }

  /** The targets of `d` split into the files directly in it and the shares of its groups. */
  lemma TargetsSplit(keys: seq<string>, d: string, L: string)
    requires EndsWith(d, '/')
    ensures Targets(keys, d, L) == LevelPaths(FilesAt(keys, d), L) + GroupTargets(keys, d, L, CallDirs(Subcalls(keys, d, L)))
  {
    var calls := Subcalls(keys, d, L);
    forall p ensures p in Targets(keys, d, L) <==> p in LevelPaths(FilesAt(keys, d), L) + GroupTargets(keys, d, L, CallDirs(calls)) {
      if p in Targets(keys, d, L) {
        var k :| k in keys && HasPrefix(k, d) && p == MirrorPath(L, k[|d|..]);
        if IsFileAt(k, d) {
          LevelFilePath(k, d, L);
          LevelPathsHas(FilesAt(keys, d), L, k);
        } else {
          var g := GroupOf(k, d);
          var i :| 0 <= i < |Groups(keys, d)| && Groups(keys, d)[i] == g;
          assert calls[i] in calls;
          assert g in CallDirs(calls);
        }
      }
      if p in LevelPaths(FilesAt(keys, d), L) {
        var k := LevelPathsFrom(FilesAt(keys, d), L, p);
        LevelFilePath(k, d, L);
      }
    }
  }

  /** A mirror of `d` at `L` adds exactly the targets of `d` to the local files. */
  lemma MirrorCovers(keys: seq<string>, d: string, L: string, local: Local)
    requires EndsWith(d, '/')
    ensures Mirror(keys, d, L, local).local.files == local.files + Targets(keys, d, L)
    decreases MaxLen(keys) - |d|, 1, 0
  {
    var made := MakeDirs(local, L);
    var files := DownloadFiles(made, FilesAt(keys, d), L);
    var calls := Subcalls(keys, d, L);
    DownloadFilesCovers(made, FilesAt(keys, d), L);
    MirrorEachCovers(keys, d, L, calls, files.local);
    TargetsSplit(keys, d, L);
  }

  /** The directory loop adds exactly the shares of the groups it visits. */
  lemma MirrorEachCovers(keys: seq<string>, d: string, L: string, calls: seq<(string, string)>, local: Local)
    requires forall c :: c in calls ==>
      c.0 in Groups(keys, d) && EndsWith(c.0, '/') && HasPrefix(c.0, d) && |c.0| > |d| && c.1 == PathJoin(L, SubdirName(d, c.0))
    ensures MirrorEach(keys, d, calls, local).local.files == local.files + GroupTargets(keys, d, L, CallDirs(calls))
    decreases MaxLen(keys) - |d|, 0, |calls|
  {
    if |calls| > 0 {
      var c := calls[0];
      assert c in calls;
      GroupWithinKeys(keys, d, c.0);
      var first := Mirror(keys, c.0, c.1, local);
      var rest := MirrorEach(keys, d, calls[1..], first.local);
      assert MirrorEach(keys, d, calls, local).local == rest.local;
      MirrorCovers(keys, c.0, c.1, local);
      assert forall x :: x in calls[1..] ==> x in calls;
      MirrorEachCovers(keys, d, L, calls[1..], first.local);
      SubTargets(keys, d, c.0, L);
      CallDirsCons(calls);
      GroupTargetsUnion(keys, d, L, {c.0}, CallDirs(calls[1..]));
      AddInTurn(local.files, first.local.files, rest.local.files,
        GroupTargets(keys, d, L, {c.0}), GroupTargets(keys, d, L, CallDirs(calls[1..])));
    } else {
      assert CallDirs(calls) == {};
      assert GroupTargets(keys, d, L, {}) == {};
    }
  }

  lemma AddInTurn(a: set<string>, b: set<string>, c: set<string>, x: set<string>, y: set<string>)
    requires b == a + x && c == b + y
    ensures c == a + (x + y)
  {
  }

  lemma CallDirsCons(calls: seq<(string, string)>)
    requires |calls| > 0
    ensures CallDirs(calls) == {calls[0].0} + CallDirs(calls[1..])
  {
    assert forall x :: x in calls <==> x == calls[0] || x in calls[1..];
  }

  lemma GroupTargetsUnion(keys: seq<string>, d: string, L: string, a: set<string>, b: set<string>)
    ensures GroupTargets(keys, d, L, a + b) == GroupTargets(keys, d, L, a) + GroupTargets(keys, d, L, b)
  {
  }

  /** A mirror of `d` at `L` fetches only objects below `d`, each to its target path. */
  lemma MirrorFetches(keys: seq<string>, d: string, L: string, local: Local)
    requires EndsWith(d, '/')
    ensures forall x :: x in Mirror(keys, d, L, local).fetched ==>
      x.key in keys && HasPrefix(x.key, d) && x.path == MirrorPath(L, x.key[|d|..])
    decreases MaxLen(keys) - |d|, 1, 0
  {
    var made := MakeDirs(local, L);
    var files := DownloadFiles(made, FilesAt(keys, d), L);
    var calls := Subcalls(keys, d, L);
    var subs := MirrorEach(keys, d, calls, files.local);
    DownloadFilesFetches(made, FilesAt(keys, d), L);
    MirrorEachFetches(keys, d, L, calls, files.local);
    forall x | x in files.fetched
      ensures x.key in keys && HasPrefix(x.key, d) && x.path == MirrorPath(L, x.key[|d|..])
    {
      LevelFilePath(x.key, d, L);
    }
    assert Mirror(keys, d, L, local).fetched == files.fetched + subs.fetched;
  }

  /** The directory loop fetches only objects below `d`, each to its target path. */
  lemma MirrorEachFetches(keys: seq<string>, d: string, L: string, calls: seq<(string, string)>, local: Local)
    requires forall c :: c in calls ==>
      c.0 in Groups(keys, d) && EndsWith(c.0, '/') && HasPrefix(c.0, d) && |c.0| > |d| && c.1 == PathJoin(L, SubdirName(d, c.0))
    ensures forall x :: x in MirrorEach(keys, d, calls, local).fetched ==>
      x.key in keys && IsNestedUnder(x.key, d) && x.path == MirrorPath(L, x.key[|d|..])
    decreases MaxLen(keys) - |d|, 0, |calls|
  {
    if |calls| > 0 {
      var c := calls[0];
      assert c in calls;
      GroupWithinKeys(keys, d, c.0);
      var first := Mirror(keys, c.0, c.1, local);
      var rest := MirrorEach(keys, d, calls[1..], first.local);
      assert MirrorEach(keys, d, calls, local).fetched == first.fetched + rest.fetched;
      MirrorFetches(keys, c.0, c.1, local);
      assert forall x :: x in calls[1..] ==> x in calls;
      MirrorEachFetches(keys, d, L, calls[1..], first.local);
      forall x | x in first.fetched
        ensures x.key in keys && IsNestedUnder(x.key, d) && x.path == MirrorPath(L, x.key[|d|..])
      {
        UnderGroup(keys, d, c.0, x.key);
        NestedPath(x.key, d, L);
      }
    }
  }

  /** `dirID` with the trailing `/` that `downloadBucketDir` makes sure of. */
  function NormalizeDir(dirID: string): (d: string)
    requires |dirID| > 0
    ensures EndsWith(d, '/')
    ensures d == dirID || d == dirID + "/"
    ensures EndsWith(dirID, '/') ==> d == dirID
  {
    if EndsWith(dirID, '/') then dirID else dirID + "/"
  }

  /**
   * `downloadBucketDir` with the recursion corrected to descend into each listed group prefix.
   * It fails when the local directory cannot be made (an empty path), when `dirID` is empty, and
   * when the local directory is a file while there is something below `dirID` to write under it.
   * Otherwise every object below the directory has a file at its mirror path, nothing else was
   * downloaded, and files already present were left alone.
   */
  function DownloadBucketDir(keys: seq<string>, dirID: string, L: string, local: Local): (r: Result<Sync, SyncError>)
    ensures r == Err(EmptyLocalPath) <==> L == ""
    ensures r == Err(EmptyDirID) <==> L != "" && |dirID| == 0
    ensures r == Err(LocalPathIsFile) <==>
      L != "" && |dirID| > 0 && L in local.files && exists k :: k in keys && HasPrefix(k, NormalizeDir(dirID))
    ensures r.Ok? ==> Extends(local, r.value)
    ensures r.Ok? ==> r.value.local.files == local.files + Targets(keys, NormalizeDir(dirID), L)
    ensures r.Ok? ==> forall x :: x in r.value.fetched ==>
      x.key in keys && HasPrefix(x.key, NormalizeDir(dirID)) && x.path == MirrorPath(L, x.key[|NormalizeDir(dirID)|..])
  {
    if L == "" then Err(EmptyLocalPath)
    else if |dirID| == 0 then Err(EmptyDirID)
    else
      var d := NormalizeDir(dirID);
      var below := DeepFiles(keys, d);
      if L in local.files && |below| > 0 then
        assert below[0] in keys && HasPrefix(below[0], d);
        Err(LocalPathIsFile)
      else
        MirrorCovers(keys, d, L, local);
        MirrorFetches(keys, d, L, local);
        Ok(Mirror(keys, d, L, local))
  }

  lemma InTargets(keys: seq<string>, d: string, L: string, k: string)
    requires k in keys && HasPrefix(k, d)
    ensures MirrorPath(L, k[|d|..]) in Targets(keys, d, L)
  {
  }

  /** Mirroring again over the result of a mirror fetches nothing and changes no file. */
  lemma RerunFetchesNothing(keys: seq<string>, d: string, L: string, local: Local)
    requires EndsWith(d, '/')
    ensures var first := Mirror(keys, d, L, local);
      var again := Mirror(keys, d, L, first.local);
      again.fetched == [] && again.local.files == first.local.files
  {
    var first := Mirror(keys, d, L, local);
    var again := Mirror(keys, d, L, first.local);
    MirrorCovers(keys, d, L, local);
    MirrorFetches(keys, d, L, first.local);
    if |again.fetched| > 0 {
      var x := again.fetched[0];
      InTargets(keys, d, L, x.key);
      assert false;
    }
    assert again.local.files == first.local.files + {};
  }

  /**
   * The recursive calls `downloadBucketDir` as written makes from normalised directory `d`
   * mirrored at `L`: each listed directory, trailing `/` trimmed, mirrored at `L` joined with
   * the directory's last segment.
   */
  function AsWrittenSubcalls(keys: seq<string>, d: string, L: string): (r: seq<(string, string)>)
    requires EndsWith(d, '/')
    ensures |r| == |Groups(keys, d)|
    ensures forall i :: 0 <= i < |r| ==> r[i].0 + "/" == Groups(keys, d)[i] && r[i].1 == PathJoin(L, LastSegment(r[i].0))
  {
    var dirs := ListBucketEntries(keys, d, true, false).value;
    seq(|dirs|, i requires 0 <= i < |dirs| => (dirs[i], PathJoin(L, LastSegment(dirs[i]))))
  }

  /** Where the listed subdirectory has a name, the as-written call and the corrected one agree once `dirID` is normalised. */
  lemma AsWrittenAgreesOnNamedDirs(keys: seq<string>, d: string, L: string, i: nat)
    requires EndsWith(d, '/') && i < |Groups(keys, d)|
    requires Groups(keys, d)[i] != d + "/"
    ensures |AsWrittenSubcalls(keys, d, L)[i].0| > 0
    ensures NormalizeDir(AsWrittenSubcalls(keys, d, L)[i].0) == Subcalls(keys, d, L)[i].0
    ensures AsWrittenSubcalls(keys, d, L)[i].1 == Subcalls(keys, d, L)[i].1
  {
    var g := Groups(keys, d)[i];
    assert g in Groups(keys, d);
    var dir := AsWrittenSubcalls(keys, d, L)[i].0;
    var seg := SubdirName(d, g);
    assert dir == d + seg;
    assert seg != "";
    LastSegmentOfJoin(d, seg);
    var k :| k in keys && IsNestedUnder(k, d) && g == GroupOf(k, d);
  }

  /**
   * Where it has none (an object name with `//` right after `d`), the as-written call lists `d`
   * itself again, so the recursion makes no progress.
   */
  lemma AsWrittenRevisits(keys: seq<string>, d: string, L: string, i: nat)
    requires EndsWith(d, '/') && i < |Groups(keys, d)|
    requires Groups(keys, d)[i] == d + "/"
    ensures AsWrittenSubcalls(keys, d, L)[i] == (d, PathJoin(L, ""))
  {
    assert LastSegment(d) == "";
  }

  lemma GroupsOfOne(k: string, prefix: string)
    requires IsNestedUnder(k, prefix)
    ensures Groups([k], prefix) == [GroupOf(k, prefix)]
  {
    assert [k][..0] == [];
  }

  lemma EmptySegmentGroup()
    ensures IsNestedUnder("a//b", "a/") && GroupOf("a//b", "a/") == "a//"
  {
    assert "a//b"[..3] == "a/" + "" + "/";
    SegmentOfPrefixed("a//b", "a/", "");
  }

  lemma EmptySegmentGroups()
    ensures Groups(["a//b"], "a/") == ["a//"]
  {
    EmptySegmentGroup();
    GroupsOfOne("a//b", "a/");
  }

  /** The object `a//b` sends the as-written download of `a/` into `a/` again with the same local path: it never returns. */
  lemma EmptySegmentLoops()
    ensures Groups(["a//b"], "a/") == ["a//"]
    ensures AsWrittenSubcalls(["a//b"], "a/", "L/") == [("a/", "L/")]
  {
    EmptySegmentGroups();
    AsWrittenRevisits(["a//b"], "a/", "L/", 0);
    assert PathJoin("L/", "") == "L/";
  }
}

=== FILE: drive.dfy ===
/**
 * The Drive helpers with their remote service abstracted away. A backend is a pure function from
 * the request sent to the outcome of each of the five attempts the retry loop may make, so every
 * helper is a pure function of its arguments and that backend.
 */
module Drive {
  import opened Types
  import opened Strings
  import opened Retry
  import opened DriveQuery

  /** One entry of a `files.list` reply (`fields='files(id, name)'`). */
  datatype DriveItem = DriveItem(id: string, name: string)

  /** A `files.list` reply: the `files` list and the `nextPageToken`, absent on the last page. */
  datatype Page = Page(items: seq<DriveItem>, next: Option<string>)

  const FolderMimeType: string := "application/vnd.google-apps.folder"
  const UploadMimeType: string := "image/jpeg"

  datatype Metadata = Metadata(name: string, mimeType: Option<string>, parents: seq<string>)
  datatype Media = Media(localPath: string, mimeType: string)

  /** The body of a `files.create` call, with the media to upload if any. */
  datatype CreateRequest = CreateRequest(metadata: Metadata, media: Option<Media>)

  /** The `q` and `pageToken` parameters of a `files.list` call. */
  datatype ListRequest = ListRequest(query: string, pageToken: Option<string>)

  /** Per-attempt outcomes of `files.create`: the new item's id, or a raised exception. */
  type CreateBackend = CreateRequest -> Attempts<string>

  /** Per-attempt outcomes of `files.list`. */
  type ListBackend = ListRequest -> Attempts<Page>

  /** Failures that reach the caller: exceptions and `exit(1)`. */
  datatype DriveError =
    | UnpackedNone            // the list call gave up and its missing reply was unpacked as a pair
    | KeyMissing(key: string) // the image class has no folder in the class map
    | NotExactlyOne(found: nat)
    | Exited(code: int)

  /** A Python page token is truthy when present and non-empty. */
  predicate Truthy(token: Option<string>) {
    token.Some? && token.value != ""
  }

  /** `searchFiles`' marker meaning "page, but start from the beginning". */
  const InitToken: string := "init"

  /** The token actually sent for a requested `npt`: `'init'` becomes no token. */
  function SentToken(npt: Option<string>): (t: Option<string>)
    ensures t.None? <==> npt.None? || npt == Some(InitToken)
    ensures t.Some? ==> t == npt
  {
    if npt == Some(InitToken) then None else npt
  }

  function FolderRequest(parentDirID: string, folderName: string): CreateRequest {
    CreateRequest(Metadata(folderName, Some(FolderMimeType), [parentDirID]), None)
  }

  function UploadRequest(dirID: string, localFilePath: string): CreateRequest {
    CreateRequest(Metadata(PureName(localFilePath), None, [dirID]), Some(Media(localFilePath, UploadMimeType)))
  }

  /** `createFolder`: the folder request under retry; the id of the first successful create, or `None`. */
  function CreateFolder(create: CreateBackend, parentDirID: string, folderName: string): (r: Run<string>)
    ensures Obeys(create(FolderRequest(parentDirID, folderName)), r)
    ensures r.calls <= MaxAttempts && r.sleeps < MaxAttempts
  {
    Retried(create(FolderRequest(parentDirID, folderName)))
  }

  /** `uploadFile`: the file is uploaded under its base name into `dirID`, under retry. */
  function UploadFile(create: CreateBackend, dirID: string, localFilePath: string): (r: Run<string>)
    ensures Obeys(create(UploadRequest(dirID, localFilePath)), r)
    ensures r.calls <= MaxAttempts && r.sleeps < MaxAttempts
  {
    Retried(create(UploadRequest(dirID, localFilePath)))
  }

  /** `driveListFilesQueryWithNextToken`: one page of the query under retry; `None` after five failures. */
  function ListFilesWithNextToken(list: ListBackend, parentID: string, customQuery: string,
                                  pageToken: Option<string>): (r: Run<Page>)
    ensures Obeys(list(ListRequest(ListQuery(parentID, customQuery), pageToken)), r)
  {
    Retried(list(ListRequest(ListQuery(parentID, customQuery), pageToken)))
  }

  /**
   * `driveListFilesQuery`: the first page's items, without a token. Unpacking the `None` of an
   * exhausted retry loop raises, so that case is an error.
   */
  function ListFiles(list: ListBackend, parentID: string, customQuery: string): (r: Result<seq<DriveItem>, DriveError>)
    ensures var outcomes := list(ListRequest(ListQuery(parentID, customQuery), None));
      && (r.Err? <==> forall j :: 0 <= j < MaxAttempts ==> outcomes[j].None?)
      && (r.Err? ==> r.error == UnpackedNone)
      && (r.Ok? ==> exists k :: 0 <= k < MaxAttempts && outcomes[k].Some? && outcomes[k].value.items == r.value
                                && forall j :: 0 <= j < k ==> outcomes[j].None?)
  {
    var run := ListFilesWithNextToken(list, parentID, customQuery, None);
    match run.result
    case None => Err(UnpackedNone)
    case Some(page) =>
      assert list(ListRequest(ListQuery(parentID, customQuery), None))[run.calls - 1] == Some(page);
      Ok(page.items)
  }

  /** `driveListFilesByName`: the first page of the items named exactly `searchName`, or of all items when it is falsy. */
  function ListFilesByName(list: ListBackend, parentID: string, searchName: string): (r: Result<seq<DriveItem>, DriveError>)
    ensures searchName != "" ==> r == ListFiles(list, parentID, "name = '" + searchName + "'")
    ensures searchName == "" ==> r == ListFiles(list, parentID, "")
  {
    ListFiles(list, parentID, NameFilter(searchName))
  }

  /** What `searchFiles` returns: a `(items, token)` pair or `None` when paging, a bare item list otherwise. */
  datatype SearchReply = Paged(page: Option<Page>) | Listed(items: seq<DriveItem>) | Crashed(error: DriveError)

  /**
   * `searchFiles`: builds the constraint clause, then pages with the given token (`'init'` sent
   * as none) when `npt` is truthy, or lists the first page as a bare list when it is not.
   */
  function SearchFiles(list: ListBackend, parentID: string, minTime: string, maxTime: string,
                       prefix: string, npt: Option<string>): (r: SearchReply)
    ensures Truthy(npt) <==> r.Paged?
    ensures Truthy(npt) ==>
      r.page == ListFilesWithNextToken(list, parentID, SearchClause(minTime, maxTime, prefix), SentToken(npt)).result
    ensures !Truthy(npt) ==> match ListFiles(list, parentID, SearchClause(minTime, maxTime, prefix))
      case Ok(items) => r == Listed(items)
      case Err(e) => r == Crashed(e)
  {
    var customQuery := SearchClause(minTime, maxTime, prefix);
    if Truthy(npt) then
      Paged(ListFilesWithNextToken(list, parentID, customQuery, SentToken(npt)).result)
    else
      match ListFiles(list, parentID, customQuery)
      case Ok(items) => Listed(items)
      case Err(e) => Crashed(e)
  }

  /** `getDirForClassCamera`: the `(id, name)` of the one folder named `cameraID` in the class folder. */
  function GetDirForClassCamera(list: ListBackend, classLocations: map<string, string>, imgClass: string,
                                cameraID: string): (r: Result<(string, string), DriveError>)
    ensures imgClass !in classLocations ==> r == Err(KeyMissing(imgClass))
    ensures r.Ok? <==> (imgClass in classLocations
      && ListFilesByName(list, classLocations[imgClass], cameraID).Ok?
      && |ListFilesByName(list, classLocations[imgClass], cameraID).value| == 1)
    ensures r.Ok? ==> var only := ListFilesByName(list, classLocations[imgClass], cameraID).value[0];
      r.value == (only.id, only.name)
    ensures imgClass in classLocations ==> var dirs := ListFilesByName(list, classLocations[imgClass], cameraID);
      && (dirs.Err? ==> r == Err(dirs.error))
      && (dirs.Ok? && |dirs.value| != 1 ==> r == Err(NotExactlyOne(|dirs.value|)))
  {
    if imgClass !in classLocations then Err(KeyMissing(imgClass))
    else
      match ListFilesByName(list, classLocations[imgClass], cameraID)
      case Err(e) => Err(e)
      case Ok(dirs) =>
        if |dirs| != 1 then Err(NotExactlyOne(|dirs|))
        else Ok((dirs[0].id, dirs[0].name))
  }

  /** What `downloadFile` goes on to fetch: the first match's id, and whether it printed the count warning. */
  datatype DownloadPlan = DownloadPlan(fileID: string, localPath: string, warned: bool)

  /**
   * `downloadFile`'s match-count logic: exit with status 1 on no match; otherwise fetch the first
   * match, printing a warning first when there were several.
   */
  function DownloadFile(list: ListBackend, dirID: string, fileName: string, localFilePath: string): (r: Result<DownloadPlan, DriveError>)
    ensures var files := ListFilesByName(list, dirID, fileName);
      && (r.Ok? <==> files.Ok? && |files.value| >= 1)
      && (files.Err? ==> r == Err(files.error))
      && (files.Ok? && |files.value| == 0 ==> r == Err(Exited(1)))
      && (r.Ok? ==> r.value.fileID == files.value[0].id && r.value.localPath == localFilePath
                    && (r.value.warned <==> |files.value| > 1))
  {
    match ListFilesByName(list, dirID, fileName)
    case Err(e) => Err(e)
    case Ok(files) =>
      if |files| < 1 then Err(Exited(1))
      else Ok(DownloadPlan(files[0].id, localFilePath, |files| != 1))
  }

  /**
   * The two uniqueness rules differ: with two matches `getDirForClassCamera` raises while
   * `downloadFile` carries on with the first.
   */
  lemma SeveralMatches(list: ListBackend, classLocations: map<string, string>, imgClass: string,
                       name: string, localFilePath: string, a: DriveItem, b: DriveItem)
    requires imgClass in classLocations
    requires ListFilesByName(list, classLocations[imgClass], name) == Ok([a, b])
    ensures GetDirForClassCamera(list, classLocations, imgClass, name) == Err(NotExactlyOne(2))
    ensures DownloadFile(list, classLocations[imgClass], name, localFilePath) == Ok(DownloadPlan(a.id, localFilePath, true))
  {
  }

  /** With exactly one match both helpers agree on the item. */
  lemma OneMatch(list: ListBackend, classLocations: map<string, string>, imgClass: string,
                 name: string, localFilePath: string, a: DriveItem)
    requires imgClass in classLocations
    requires ListFilesByName(list, classLocations[imgClass], name) == Ok([a])
    ensures GetDirForClassCamera(list, classLocations, imgClass, name) == Ok((a.id, a.name))
    ensures DownloadFile(list, classLocations[imgClass], name, localFilePath) == Ok(DownloadPlan(a.id, localFilePath, false))
  {
  }

  /** With no match `getDirForClassCamera` raises and `downloadFile` exits. */
  lemma NoMatch(list: ListBackend, classLocations: map<string, string>, imgClass: string,
                name: string, localFilePath: string)
    requires imgClass in classLocations
    requires ListFilesByName(list, classLocations[imgClass], name) == Ok([])
    ensures GetDirForClassCamera(list, classLocations, imgClass, name) == Err(NotExactlyOne(0))
    ensures DownloadFile(list, classLocations[imgClass], name, localFilePath) == Err(Exited(1))
  {
  }
}

=== FILE: drive_query.dfy ===
/**
 * The Drive `files.list` query strings: the fixed parent/trash clause, the optional custom
 * clause, the exact-name filter of `driveListFilesByName` and the time/name constraints of
 * `searchFiles`. Python's falsy `None` and `''` are both the empty string here.
 */
module DriveQuery {
  import opened Strings

  /** The fixed clause: items whose parents include `parentID` and that are not in the trash. */
  function BaseQuery(parentID: string): string {
    "'" + parentID + "' in parents and trashed = False"
  }

  /** The `q` parameter of `driveListFilesQueryWithNextToken`. */
  function ListQuery(parentID: string, customQuery: string): (q: string)
    ensures HasPrefix(q, BaseQuery(parentID))
    ensures customQuery == "" <==> q == BaseQuery(parentID)
    ensures customQuery != "" ==> q[|BaseQuery(parentID)|..] == " and " + customQuery
  {
    var base := BaseQuery(parentID);
    assert (base + " and " + customQuery)[..|base|] == base;
    if customQuery != "" then base + " and " + customQuery else base
  }

  /** Recovers the custom clause from a query built for `parentID`; inverse of `ListQuery`. */
  function CustomClause(parentID: string, q: string): string
    requires HasPrefix(q, BaseQuery(parentID))
  {
    var base := BaseQuery(parentID);
    if |q| <= |base| + |" and "| then "" else q[|base| + |" and "|..]
  }

  /** The query keeps the custom clause recoverable: `ListQuery` loses nothing. */
  lemma CustomClauseRoundTrip(parentID: string, customQuery: string)
    ensures CustomClause(parentID, ListQuery(parentID, customQuery)) == customQuery
  {
    var base := BaseQuery(parentID);
    if customQuery != "" {
      assert (base + " and " + customQuery)[|base| + |" and "|..] == customQuery;
    }
  }

  /** The exact-name clause: the name quoted after `name = `, or no clause when the name is falsy. */
  function NameFilter(searchName: string): (c: string)
    ensures c == "" <==> searchName == ""
    ensures searchName != "" ==> HasPrefix(c, "name = '") && EndsWith(c, '\'')
    ensures searchName != "" ==> |c| == |"name = ''"| + |searchName| && c[|"name = '"|..|c| - 1] == searchName
  {
    var c := "name = '" + searchName + "'";
    assert c[..|"name = '"|] == "name = '";
    assert c[|"name = '"|..|c| - 1] == searchName;
    if searchName != "" then c else ""
  }

  /** The quoted name of an exact-name clause; inverse of `NameFilter`. */
  function FilteredName(c: string): string {
    if |c| < |"name = ''"| then "" else c[|"name = '"|..|c| - 1]
  }

  /** Different names give different clauses: the name is recovered from the clause. */
  lemma NameFilterRoundTrip(searchName: string)
    ensures FilteredName(NameFilter(searchName)) == searchName
  {
  }

  function MinTimeClause(minTime: string): string { " modifiedTime > '" + minTime + "' " }
  function MaxTimeClause(maxTime: string): string { " modifiedTime < '" + maxTime + "' " }
  function NameContainsClause(prefix: string): string { " name contains '" + prefix + "' " }

  /** The `constraints` list of `searchFiles`, one entry per truthy filter. */
  function SearchConstraints(minTime: string, maxTime: string, prefix: string): (cs: seq<string>)
    ensures |cs| == (if minTime != "" then 1 else 0) + (if maxTime != "" then 1 else 0)
      + (if prefix != "" then 1 else 0)
    ensures minTime != "" ==> cs[0] == MinTimeClause(minTime)
    ensures maxTime != "" ==> cs[if minTime != "" then 1 else 0] == MaxTimeClause(maxTime)
    ensures prefix != "" ==> cs[|cs| - 1] == NameContainsClause(prefix)
    ensures forall i :: 0 <= i < |cs| ==> cs[i] != ""
  {
    (if minTime != "" then [MinTimeClause(minTime)] else [])
    + (if maxTime != "" then [MaxTimeClause(maxTime)] else [])
    + (if prefix != "" then [NameContainsClause(prefix)] else [])
  }

  /** The constraints of `searchFiles` joined into one clause, with ` and ` between each two. */
  function SearchClause(minTime: string, maxTime: string, prefix: string): (c: string)
    ensures c == "" <==> minTime == "" && maxTime == "" && prefix == ""
  {
    var cs := SearchConstraints(minTime, maxTime, prefix);
    JoinNonEmpty(" and ", cs);
    JoinWith(" and ", cs)
  }

  lemma {:induction false} JoinNonEmpty(sep: string, parts: seq<string>)
    requires forall i :: 0 <= i < |parts| ==> parts[i] != ""
    ensures JoinWith(sep, parts) == "" <==> |parts| == 0
    decreases |parts|
  {
    if |parts| > 1 {
      JoinNonEmpty(sep, parts[1..]);
      assert |JoinWith(sep, parts)| >= |parts[0]|;
    }
  }

  /** With no filters `searchFiles` lists with exactly the parent/trash clause. */
  lemma UnfilteredSearchIsBase(parentID: string)
    ensures ListQuery(parentID, SearchClause("", "", "")) == BaseQuery(parentID)
  {
  }

  /** With two filters set, their clauses are joined by one ` and `, still in the order minTime, maxTime, name. */
  lemma TwoFilterSearchClause(minTime: string, maxTime: string, prefix: string)
    ensures minTime != "" && maxTime != "" && prefix == "" ==>
      SearchClause(minTime, maxTime, prefix) == MinTimeClause(minTime) + " and " + MaxTimeClause(maxTime)
    ensures minTime != "" && maxTime == "" && prefix != "" ==>
      SearchClause(minTime, maxTime, prefix) == MinTimeClause(minTime) + " and " + NameContainsClause(prefix)
    ensures minTime == "" && maxTime != "" && prefix != "" ==>
      SearchClause(minTime, maxTime, prefix) == MaxTimeClause(maxTime) + " and " + NameContainsClause(prefix)
  {
    var cs := SearchConstraints(minTime, maxTime, prefix);
    if |cs| == 2 {
      assert cs == [cs[0], cs[1]];
      JoinWithTwo(" and ", cs[0], cs[1]);
    }
  }

  /** With every filter set, the clauses come in the order minTime, maxTime, name. */
  lemma FullSearchQuery(parentID: string, minTime: string, maxTime: string, prefix: string)
    requires minTime != "" && maxTime != "" && prefix != ""
    ensures ListQuery(parentID, SearchClause(minTime, maxTime, prefix))
      == BaseQuery(parentID) + " and " + MinTimeClause(minTime) + " and " + MaxTimeClause(maxTime)
         + " and " + NameContainsClause(prefix)
  {
    var cs := SearchConstraints(minTime, maxTime, prefix);
    assert cs == [MinTimeClause(minTime), MaxTimeClause(maxTime), NameContainsClause(prefix)];
    assert cs[1..][1..] == [NameContainsClause(prefix)];
    assert JoinWith(" and ", cs) == MinTimeClause(minTime) + " and " + (MaxTimeClause(maxTime) + " and " + NameContainsClause(prefix));
  }
}

=== FILE: file_ops.dfy ===
/**
 * Helpers that build destination paths on either side of the local/Cloud Storage divide:
 * `copyFile` and `dateSubDir`. The copy itself, the upload and the clock are not modelled; the
 * operations return the path they produce and, for `copyFile`, the action they would take.
 */
module FileOps {
  import opened Types
  import opened Strings
  import opened GcsPath

  /** What `copyFile` does once the destination path is known. */
  datatype CopyAction =
    | UploadToBucket(bucket: string, name: string, src: string)
    | CopyLocal(src: string, dest: string, makeDir: bool)

  datatype CopyError =
    | SourceIsRemote   // the source is a `gs://` path, which the copy asserts against
    | EmptyObjectName  // the destination's object name is empty, so it has no last character to test

  /** The object name an upload into directory object `dirName` gets for a file called `file`. */
  function ObjectUnder(dirName: string, file: string): (name: string)
    requires |dirName| > 0
    ensures name == DropTrailingSlash(dirName) + "/" + file
  {
    if EndsWith(dirName, '/') then dirName + file else dirName + "/" + file
  }

  /**
   * `copyFile`: a local source is copied into `destDir`, uploaded under the destination's object
   * name when `destDir` is a `gs://` path, otherwise copied on the local file system (creating
   * `destDir` when `destExists` says it is missing).
   */
  function CopyFile(src: string, destDir: string, destExists: bool): (r: Result<(string, CopyAction), CopyError>)
    ensures r == Err(SourceIsRemote) <==> ParseGCSPath(src).Some?
    ensures r == Err(EmptyObjectName) <==> ParseGCSPath(src).None? && ParseGCSPath(destDir).Some? && ParseGCSPath(destDir).value.name == ""
    ensures r.Ok? ==> (r.value.1.UploadToBucket? <==> ParseGCSPath(destDir).Some?)
    ensures r.Ok? && r.value.1.UploadToBucket? ==>
      var (dest, up) := r.value;
      && up.bucket == ParseGCSPath(destDir).value.bucket && up.src == src
      && up.name == DropTrailingSlash(ParseGCSPath(destDir).value.name) + "/" + PureName(src)
      && dest == RepackGCSPath(up.bucket, up.name)
    ensures r.Ok? && r.value.1.CopyLocal? ==>
      var (dest, cp) := r.value;
      && cp == CopyLocal(src, dest, !destExists)
      && dest == PathJoin(destDir, PureName(src))
      && HasPrefix(dest, destDir) && LastSegment(dest) == PureName(src)
  {
    if ParseGCSPath(src).Some? then Err(SourceIsRemote)
    else
      match ParseGCSPath(destDir)
      case Some(p) =>
        if |p.name| == 0 then Err(EmptyObjectName)
        else
          var name := ObjectUnder(p.name, PureName(src));
          Ok((RepackGCSPath(p.bucket, name), UploadToBucket(p.bucket, name, src)))
      case None =>
        var dest := PathJoin(destDir, PureName(src));
        Ok((dest, CopyLocal(src, dest, !destExists)))
  }

  /**
   * A copy into a bucket directory reads back as an object of that bucket whose last segment is
   * the source's file name, directly under the destination's object name.
   */
  lemma CopyToBucketParsesBack(src: string, destDir: string, destExists: bool)
    requires CopyFile(src, destDir, destExists).Ok? && ParseGCSPath(destDir).Some?
    requires PureName(src) != "" && '\n' !in src
    ensures var dest := CopyFile(src, destDir, destExists).value.0;
      var p := ParseGCSPath(destDir).value;
      && ParseGCSPath(dest).Some?
      && ParseGCSPath(dest).value.bucket == p.bucket
      && LastSegment(ParseGCSPath(dest).value.name) == PureName(src)
      && HasPrefix(ParseGCSPath(dest).value.name, DropTrailingSlash(p.name) + "/")
  {
    var p := ParseGCSPath(destDir).value;
    var file := PureName(src);
    var name := DropTrailingSlash(p.name) + "/" + file;
    assert name == (DropTrailingSlash(p.name) + "/") + file;
    LastSegmentOfJoin(DropTrailingSlash(p.name) + "/", file);
    assert name[..|DropTrailingSlash(p.name) + "/"|] == DropTrailingSlash(p.name) + "/";
    assert name[|name| - 1] == file[|file| - 1];
    PureNameChars(src, '\n');
    assert '\n' !in name;
    RepackThenParse(p.bucket, name);
  }

  datatype DateError = EmptyParent  // the parent path is empty, so it has no last character to test

  /** `dateSubDir` for the date string `date` (the source formats today's date as `%Y-%m-%d`). */
  function DateSubDir(parent: string, date: string): (r: Result<string, DateError>)
    ensures r.Err? <==> parent == ""
    ensures r.Ok? ==> HasPrefix(r.value, parent)
    ensures r.Ok? ==> r.value == DropTrailingSlash(parent) + "/" + date
    ensures r.Ok? && '/' !in date ==> LastSegment(r.value) == date
  {
    if parent == "" then Err(EmptyParent)
    else
      var dir := if EndsWith(parent, '/') then parent else parent + "/";
      LastSegmentOfJoin(dir, date);
      assert (dir + date)[..|parent|] == parent;
      Ok(dir + date)
  }
}

=== FILE: gcs_path.dfy ===
/**
 * The `gs://bucket/name` notation for Cloud Storage objects: `parseGCSPath` and its inverse
 * `repackGCSPath`. Parsing follows the regular expression `^gs://([a-z0-9_.-]+)/(.+)$` as Python's
 * `re` module evaluates it: `.` never matches a newline, and `$` also matches just before one
 * final newline.
 */
module GcsPath {
  import opened Types
  import opened Strings

  const Scheme: string := "gs://"

  /** One character of the class `[a-z0-9_.-]`. */
  predicate IsBucketChar(c: char) {
    ('a' <= c <= 'z') || ('0' <= c <= '9') || c == '_' || c == '.' || c == '-'
  }

  /** A string the bucket group `([a-z0-9_.-]+)` matches in full. */
  predicate IsBucketName(b: string) {
    |b| > 0 && forall i :: 0 <= i < |b| ==> IsBucketChar(b[i])
  }

  /** The parsed form: the source returns it as the dict `{'bucket': ..., 'name': ...}`. */
  datatype ObjectPath = ObjectPath(bucket: string, name: string)

  /**
   * Reference reading of the pattern: `path` is the scheme, a bucket name, `/`, a non-empty
   * newline-free name, and at most one final newline that `$` lets through.
   */
  predicate PatternMatches(path: string, bucket: string, name: string) {
    && IsBucketName(bucket)
    && |name| > 0
    && '\n' !in name
    && (path == Scheme + bucket + "/" + name || path == Scheme + bucket + "/" + name + "\n")
  }

  /** What `(.+)$` captures from the text after the bucket's `/`, if it matches there at all. */
  function MatchNameGroup(raw: string): (r: Option<string>)
    ensures r.Some? ==> |r.value| > 0 && '\n' !in r.value
    ensures r.Some? ==> raw == r.value || raw == r.value + "\n"
    ensures (|raw| > 0 && '\n' !in raw) ==> r == Some(raw)
  {
    if |raw| > 0 && '\n' !in raw then Some(raw)
    else if |raw| > 1 && raw[|raw| - 1] == '\n' && '\n' !in raw[..|raw| - 1] then
      Some(raw[..|raw| - 1])
    else None
  }

  /** Splits at the first `/`: the bucket group cannot contain one, so it must end right there. */
  function SplitAtFirstSlash(rest: string): (r: Option<(string, string)>)
    ensures r.None? <==> '/' !in rest
    ensures r.Some? ==> rest == r.value.0 + "/" + r.value.1 && '/' !in r.value.0
  {
    match IndexOf(rest, '/')
    case None => None
    case Some(i) =>
      assert rest == rest[..i] + "/" + rest[i + 1..];
      Some((rest[..i], rest[i + 1..]))
  }

  /** The first `/` of `b + "/" + a` is the one after `b` when `b` has none. */
  lemma SplitAtFirstSlashOf(b: string, a: string)
    requires '/' !in b
    ensures SplitAtFirstSlash(b + "/" + a) == Some((b, a))
  {
    var rest := b + "/" + a;
    assert rest[|b|] == '/' && rest[..|b|] == b;
    assert IndexOf(rest, '/') == Some(|b|);
    assert rest[|b| + 1..] == a;
  }

  /** `parseGCSPath`: `None` when the pattern does not match, otherwise bucket and name, with one trailing `/` dropped from the name. */
  function ParseGCSPath(path: string): (r: Option<ObjectPath>)
    ensures r.Some? ==> HasPrefix(path, Scheme)
    ensures r.Some? ==> IsBucketName(r.value.bucket) && '/' !in r.value.bucket
    ensures r.Some? ==> '\n' !in r.value.name
  {
    if !HasPrefix(path, Scheme) then None
    else
      match SplitAtFirstSlash(path[|Scheme|..])
      case None => None
      case Some((bucket, raw)) =>
        if !IsBucketName(bucket) then None
        else
          match MatchNameGroup(raw)
          case None => None
          case Some(name) => Some(ObjectPath(bucket, DropTrailingSlash(name)))
  }

  /** `repackGCSPath` */
  function RepackGCSPath(bucket: string, name: string): (r: string)
    ensures HasPrefix(r, Scheme)
    ensures r[|Scheme|..] == bucket + "/" + name
  {
    var r := Scheme + bucket + "/" + name;
    assert r[..|Scheme|] == Scheme;
    r
  }

  lemma BucketHasNoSlash(bucket: string)
    requires IsBucketName(bucket)
    ensures '/' !in bucket
  {
  }

  lemma AfterScheme(x: string)
    ensures HasPrefix(Scheme + x, Scheme) && (Scheme + x)[|Scheme|..] == x
  {
    assert (Scheme + x)[..|Scheme|] == Scheme;
  }

  lemma ParseOfParts(path: string, bucket: string, raw: string, name: string)
    requires HasPrefix(path, Scheme)
    requires SplitAtFirstSlash(path[|Scheme|..]) == Some((bucket, raw))
    requires IsBucketName(bucket)
    requires MatchNameGroup(raw) == Some(name)
    ensures ParseGCSPath(path) == Some(ObjectPath(bucket, DropTrailingSlash(name)))
  {
  }

  lemma PartsOfParse(path: string)
    requires ParseGCSPath(path).Some?
    ensures HasPrefix(path, Scheme)
    ensures SplitAtFirstSlash(path[|Scheme|..]).Some?
    ensures MatchNameGroup(SplitAtFirstSlash(path[|Scheme|..]).value.1).Some?
    ensures ParseGCSPath(path).value == ObjectPath(SplitAtFirstSlash(path[|Scheme|..]).value.0,
      DropTrailingSlash(MatchNameGroup(SplitAtFirstSlash(path[|Scheme|..]).value.1).value))
  {
  }

  /** Every string the pattern matches parses to its bucket and its name less one trailing `/`. */
  lemma ParseComplete(path: string, bucket: string, name: string)
    requires PatternMatches(path, bucket, name)
    ensures ParseGCSPath(path) == Some(ObjectPath(bucket, DropTrailingSlash(name)))
  {
    BucketHasNoSlash(bucket);
    var raw := if path == Scheme + bucket + "/" + name then name else name + "\n";
    assert path == Scheme + (bucket + "/" + raw);
    AfterScheme(bucket + "/" + raw);
    SplitAtFirstSlashOf(bucket, raw);
    if raw != name {
      assert raw[..|raw| - 1] == name;
    }
    ParseOfParts(path, bucket, raw, name);
  }

  lemma MatchOfParts(path: string, bucket: string, after: string, name: string)
    requires path == Scheme + (bucket + "/" + after)
    requires IsBucketName(bucket) && MatchNameGroup(after) == Some(name)
    ensures PatternMatches(path, bucket, name)
  {
    if after == name {
      assert path == Scheme + bucket + "/" + name;
    } else {
      assert path == Scheme + bucket + "/" + name + "\n";
    }
  }

  /** Every successful parse came from a string the pattern matches, with or without one trailing `/`. */
  lemma ParseSound(path: string)
    requires ParseGCSPath(path).Some?
    ensures var p := ParseGCSPath(path).value;
      PatternMatches(path, p.bucket, p.name) || PatternMatches(path, p.bucket, p.name + "/")
  {
    PartsOfParse(path);
    var p := ParseGCSPath(path).value;
    var rest := path[|Scheme|..];
    var (bucket, after) := SplitAtFirstSlash(rest).value;
    var name := MatchNameGroup(after).value;
    assert path == Scheme + rest;
    MatchOfParts(path, bucket, after, name);
    assert p.bucket == bucket && p.name == DropTrailingSlash(name);
  }

  /** A string the pattern does not match in any way parses to `None`, and conversely. */
  lemma ParseRejects(path: string)
    ensures ParseGCSPath(path).None? <==> forall b, n :: !PatternMatches(path, b, n)
  {
    if ParseGCSPath(path).Some? {
      ParseSound(path);
    } else {
      forall b, n | PatternMatches(path, b, n)
        ensures false
      {
        ParseComplete(path, b, n);
      }
    }
  }

  /** Round trip: a well-formed bucket and a name without trailing `/` or newline come back unchanged. */
  lemma RepackThenParse(bucket: string, name: string)
    requires IsBucketName(bucket)
    requires |name| > 0 && '\n' !in name && !EndsWith(name, '/')
    ensures ParseGCSPath(RepackGCSPath(bucket, name)) == Some(ObjectPath(bucket, name))
  {
    ParseComplete(RepackGCSPath(bucket, name), bucket, name);
  }

  /** One trailing `/` on the name is dropped by the parse (`gs://b/n/` reads as name `n`). */
  lemma TrailingSlashDropped(bucket: string, name: string)
    requires IsBucketName(bucket)
    requires '\n' !in name
    ensures ParseGCSPath(RepackGCSPath(bucket, name + "/")) == Some(ObjectPath(bucket, name))
  {
    assert (name + "/")[..|name|] == name;
    ParseComplete(RepackGCSPath(bucket, name + "/"), bucket, name + "/");
  }

  /** The other round trip: a parsed path with no trailing `/` or newline repacks to itself. */
  lemma ParseThenRepack(path: string)
    requires ParseGCSPath(path).Some?
    requires !EndsWith(path, '/') && !EndsWith(path, '\n')
    ensures RepackGCSPath(ParseGCSPath(path).value.bucket, ParseGCSPath(path).value.name) == path
  {
    ParseSound(path);
  }
}

=== FILE: paging.dfy ===
/**
 * `searchAllFiles`: drives `searchFiles` page by page, starting from the `'init'` marker and
 * following each reply's `nextPageToken` until one is falsy. The backend is the list function of
 * the Drive module; the ghost list `pages` names the replies it gives along the way, which is what
 * makes the loop's termination provable.
 */
module Paging {
  import opened Types
  import opened Retry
  import opened DriveQuery
  import opened Drive

  /** All items of `pages`, page after page. */
  function Flatten(pages: seq<Page>): seq<DriveItem> {
    if |pages| == 0 then [] else Flatten(pages[..|pages| - 1]) + pages[|pages| - 1].items
  }

  /** Flattening distributes over concatenation of page lists: nothing is lost, duplicated or reordered. */
  lemma {:induction false} FlattenAppend(a: seq<Page>, b: seq<Page>)
    ensures Flatten(a + b) == Flatten(a) + Flatten(b)
    decreases |b|
  {
    if |b| == 0 {
      assert a + b == a;
    } else {
      var b' := b[..|b| - 1];
      assert (a + b)[..|a + b| - 1] == a + b';
      FlattenAppend(a, b');
    }
  }

  /** An item is in the result exactly when some page holds it. */
  lemma {:induction false} FlattenMembers(pages: seq<Page>, x: DriveItem)
    ensures x in Flatten(pages) <==> exists i :: 0 <= i < |pages| && x in pages[i].items
    decreases |pages|
  {
    if |pages| > 0 {
      var init := pages[..|pages| - 1];
      FlattenMembers(init, x);
      if x in Flatten(init) {
        var i :| 0 <= i < |init| && x in init[i].items;
        assert x in pages[i].items;
      }
      if exists i :: 0 <= i < |pages| && x in pages[i].items {
        var i :| 0 <= i < |pages| && x in pages[i].items;
        if i < |init| {
          assert x in init[i].items;
        }
      }
    }
  }

  /** The token the loop holds before fetching page `i`: `'init'` first, then the previous page's. */
  function TokenBefore(pages: seq<Page>, i: nat): Option<string>
    requires i <= |pages|
  {
    if i == 0 then Some(InitToken) else pages[i - 1].next
  }

  /** The reply `searchFiles` gets when paging with `token`, after retries (`None` when they ran out). */
  function PageReply(list: ListBackend, parentID: string, minTime: string, maxTime: string, prefix: string,
                     token: Option<string>): Option<Page>
  {
    ListFilesWithNextToken(list, parentID, SearchClause(minTime, maxTime, prefix), SentToken(token)).result
  }

  /** The conversation ends with a page whose token is falsy (rather than with a failed fetch). */
  predicate Completes(pages: seq<Page>) {
    |pages| > 0 && !Truthy(pages[|pages| - 1].next)
  }

  /**
   * `pages` are the successive replies the backend gives to the token chain, every page but the
   * last carries a truthy token, and the chain ends either with a falsy token or with a fetch that
   * exhausted its retries.
   */
  predicate Conversation(list: ListBackend, parentID: string, minTime: string, maxTime: string,
                         prefix: string, pages: seq<Page>)
  {
    && (forall i {:trigger TokenBefore(pages, i)} :: 0 <= i < |pages| ==>
          PageReply(list, parentID, minTime, maxTime, prefix, TokenBefore(pages, i)) == Some(pages[i]))
    && (forall i :: 0 <= i < |pages| - 1 ==> Truthy(pages[i].next))
    && (Completes(pages) || PageReply(list, parentID, minTime, maxTime, prefix, TokenBefore(pages, |pages|)).None?)
  }

  lemma AskedTokens(pages: seq<Page>, asked: seq<Option<string>>)
    requires 0 < |asked| <= |pages| + 1
    requires forall i :: 0 <= i < |asked| ==> asked[i] == SentToken(TokenBefore(pages, i))
    ensures asked[0] == None
    ensures forall i :: 0 < i < |asked| ==> asked[i] == SentToken(pages[i - 1].next)
  {
    assert asked[0] == SentToken(TokenBefore(pages, 0));
    forall i | 0 < i < |asked|
      ensures asked[i] == SentToken(pages[i - 1].next)
    {
      assert asked[i] == SentToken(TokenBefore(pages, i));
    }
  }

  /** What the next fetch brings: page `k` while pages remain, a given-up fetch after the last truthy token. */
  lemma NextReply(list: ListBackend, parentID: string, minTime: string, maxTime: string, prefix: string,
                  pages: seq<Page>, k: nat)
    requires Conversation(list, parentID, minTime, maxTime, prefix, pages)
    requires k <= |pages| && Truthy(TokenBefore(pages, k))
    ensures var reply := PageReply(list, parentID, minTime, maxTime, prefix, TokenBefore(pages, k));
      if k < |pages| then reply == Some(pages[k]) else reply.None?
  {
  }

  /**
   * `searchAllFiles`: the items of every page in order, fetched first with no token and then with
   * each page's token; `asked` records the token sent on each fetch. A fetch that gives up makes the
   * tuple unpacking raise, so there is no partial result.
   */
  method SearchAllFiles(list: ListBackend, parentID: string, minTime: string, maxTime: string, prefix: string,
                        ghost pages: seq<Page>)
    returns (r: Result<seq<DriveItem>, DriveError>, asked: seq<Option<string>>)
    requires Conversation(list, parentID, minTime, maxTime, prefix, pages)
    ensures Completes(pages) ==> r == Ok(Flatten(pages))
    ensures !Completes(pages) ==> r == Err(UnpackedNone)
    ensures |asked| == if Completes(pages) then |pages| else |pages| + 1
    ensures asked[0] == None
    ensures forall i :: 0 < i < |asked| ==> asked[i] == SentToken(pages[i - 1].next)
  {
    var allItems: seq<DriveItem> := [];
    var nextPageToken: Option<string> := Some(InitToken);
    ghost var k := 0;
    asked := [];
    while Truthy(nextPageToken)
      invariant 0 <= k <= |pages|
      invariant nextPageToken == TokenBefore(pages, k)
      invariant allItems == Flatten(pages[..k])
      invariant |asked| == k
      invariant forall i :: 0 <= i < k ==> asked[i] == SentToken(TokenBefore(pages, i))
      decreases |pages| - k
    {
      var reply := SearchFiles(list, parentID, minTime, maxTime, prefix, nextPageToken);
      NextReply(list, parentID, minTime, maxTime, prefix, pages, k);
      asked := asked + [SentToken(nextPageToken)];
      match reply.page
      case None =>
        assert k == |pages| && !Completes(pages);
        AskedTokens(pages, asked);
        r := Err(UnpackedNone);
        return;
      case Some(page) =>
        assert pages[..k + 1][..k] == pages[..k];
        allItems := allItems + page.items;
        nextPageToken := page.next;
        k := k + 1;
    }
    assert pages[..k] == pages;
    AskedTokens(pages, asked);
    r := Ok(allItems);
  }
}

=== FILE: retry.dfy ===
/**
 * The bounded retry loop that `createFolder`, `driveListFilesQueryWithNextToken` and `uploadFile`
 * each spell out: up to five invocations of a remote call, a five-second sleep after every failure
 * that still has retries left, and `None` once all five have raised. Sleeping is counted, not timed.
 */
module Retry {
  import opened Types

  /** How many times the loop invokes the remote call at most. */
  const MaxAttempts: nat := 5

  /** Seconds the loop waits after a failed invocation that still has retries left. */
  const RetryDelaySeconds: nat := 5

  /**
   * What each of the five possible invocations of the remote call would do, in order:
   * `Some(v)` returns `v`, `None` raises. Entries after the first `Some` are never consulted.
   */
  type Attempts<T> = s: seq<Option<T>> | |s| == MaxAttempts witness [None, None, None, None, None]

  /** The value handed back to the caller, how often the call was invoked and how often the loop slept. */
  datatype Run<T> = Run(result: Option<T>, calls: nat, sleeps: nat)

  /**
   * Reference behaviour: every invocation before the last one raised; the last one either
   * returned the result, or it was the fifth and also raised. One sleep separates consecutive
   * invocations and none follows the last.
   */
  predicate Obeys<T(==)>(outcomes: Attempts<T>, r: Run<T>) {
    && 1 <= r.calls <= MaxAttempts
    && r.sleeps == r.calls - 1
    && (forall j :: 0 <= j < r.calls - 1 ==> outcomes[j].None?)
    && (if r.result.Some? then outcomes[r.calls - 1] == r.result
        else r.calls == MaxAttempts && outcomes[MaxAttempts - 1].None?)
  }

  /**
   * The retry loop from the point where `retriesLeft` attempts remain and
   * `sleeps` sleeps have happened; the attempt about to run is number `MaxAttempts - retriesLeft`.
   */
  function RetryLoop<T(==)>(outcomes: Attempts<T>, retriesLeft: nat, sleeps: nat): (r: Run<T>)
    requires retriesLeft <= MaxAttempts
    requires forall j :: 0 <= j < MaxAttempts - retriesLeft ==> outcomes[j].None?
    requires 0 < retriesLeft && sleeps == MaxAttempts - retriesLeft
    ensures Obeys(outcomes, r)
    decreases retriesLeft
  {
    var call := MaxAttempts - retriesLeft;
    var left := retriesLeft - 1;
    match outcomes[call]
    case Some(v) => Run(Some(v), call + 1, sleeps)
    case None =>
      if left > 0 then RetryLoop(outcomes, left, sleeps + 1)
      else Run(None, MaxAttempts, sleeps)
  }

  /** The whole loop, as each of the three remote helpers runs it. */
  function Retried<T(==)>(outcomes: Attempts<T>): (r: Run<T>)
    ensures Obeys(outcomes, r)
    ensures r.calls <= MaxAttempts && r.sleeps <= MaxAttempts - 1
  {
    RetryLoop(outcomes, MaxAttempts, 0)
  }

  /** The reference behaviour leaves no freedom: at most one run obeys it. */
  lemma ObeysDetermines<T>(outcomes: Attempts<T>, r1: Run<T>, r2: Run<T>)
    requires Obeys(outcomes, r1) && Obeys(outcomes, r2)
    ensures r1 == r2
  {
  }

  /** The first successful invocation ends the loop and its value is returned. */
  lemma FirstSuccessWins<T>(outcomes: Attempts<T>, k: nat)
    requires k < MaxAttempts && outcomes[k].Some?
    requires forall j :: 0 <= j < k ==> outcomes[j].None?
    ensures Retried(outcomes) == Run(outcomes[k], k + 1, k)
  {
    ObeysDetermines(outcomes, Retried(outcomes), Run(outcomes[k], k + 1, k));
  }

  /** A call that always raises is invoked five times, with four sleeps, and yields `None`. */
  lemma AlwaysFailing<T>(outcomes: Attempts<T>)
    requires forall j :: 0 <= j < MaxAttempts ==> outcomes[j].None?
    ensures Retried(outcomes) == Run(None, MaxAttempts, MaxAttempts - 1)
  {
  }

  /** `None` comes back only when all five invocations raised. */
  lemma NoneOnlyAfterFiveFailures<T>(outcomes: Attempts<T>)
    requires Retried(outcomes).result.None?
    ensures forall j :: 0 <= j < MaxAttempts ==> outcomes[j].None?
  {
  }

  /** Failing twice and then succeeding returns the third value after three invocations and two sleeps. */
  lemma SucceedsOnThirdAttempt<T>(v: T, later: Option<T>, last: Option<T>)
    ensures Retried([None, None, Some(v), later, last]) == Run(Some(v), 3, 2)
  {
    FirstSuccessWins([None, None, Some(v), later, last], 2);
  }

  /** Total time spent sleeping never exceeds four delays (twenty seconds). */
  lemma SleepTimeBounded<T>(outcomes: Attempts<T>)
    ensures Retried(outcomes).sleeps * RetryDelaySeconds <= (MaxAttempts - 1) * RetryDelaySeconds
  {
  }
}

=== FILE: strings.dfy ===
/** The handful of Python string and POSIX path idioms the storage helpers rely on. */
module Strings {
  import opened Types

  /** `s.startswith(p)` */
  predicate HasPrefix(s: string, p: string) {
    |p| <= |s| && s[..|p|] == p
  }

  /** `s[-1] == c`; false on the empty string, where Python would raise instead. */
  predicate EndsWith(s: string, c: char) {
    |s| > 0 && s[|s| - 1] == c
  }

  /** Removes one trailing `/` when there is one, and leaves `s` alone otherwise. */
  function DropTrailingSlash(s: string): (r: string)
    ensures r == s || s == r + "/"
    ensures EndsWith(s, '/') ==> s == r + "/"
    ensures !EndsWith(s, '/') ==> r == s
  {
    if EndsWith(s, '/') then s[..|s| - 1] else s
  }

  /** Index of the first occurrence of `c` in `s`. */
  function IndexOf(s: string, c: char): (r: Option<nat>)
    ensures r.None? <==> c !in s
    ensures r.Some? ==> r.value < |s| && s[r.value] == c && c !in s[..r.value]
  {
    if |s| == 0 then None
    else if s[0] == c then Some(0)
    else match IndexOf(s[1..], c)
      case None => None
      case Some(i) =>
        assert s[..i + 1] == [s[0]] + s[1..][..i];
        Some(i + 1)
  }

  /** `s.split('/')[-1]`: everything after the last `/`. */
  function LastSegment(s: string): (r: string)
    ensures '/' !in r
    ensures |r| <= |s| && s[|s| - |r|..] == r
    ensures |r| < |s| ==> s[|s| - |r| - 1] == '/'
  {
    if |s| == 0 || s[|s| - 1] == '/' then ""
    else LastSegment(s[..|s| - 1]) + [s[|s| - 1]]
  }

  /**
   * `os.path.join(a, b)` for two POSIX path components: an absolute `b` replaces `a`; otherwise
   * `b` follows `a` with exactly one `/` between them, none being added when `a` is empty or
   * already ends in `/`.
   */
  function PathJoin(a: string, b: string): (r: string)
    ensures |b| > 0 && b[0] == '/' ==> r == b
    ensures '/' !in b ==> LastSegment(r) == b && HasPrefix(r, a)
    ensures '/' !in b ==> |r| == |a| + |b| + (if |a| == 0 || EndsWith(a, '/') then 0 else 1)
  {
    if |b| > 0 && b[0] == '/' then b
    else if |a| == 0 || EndsWith(a, '/') then
      LastSegmentOfJoin(a, b);
      a + b
    else
      LastSegmentOfJoin(a + "/", b);
      a + "/" + b
  }

  /** Appending a `/`-free name to a path that is empty or ends in `/` makes that name the last segment. */
  lemma {:induction false} LastSegmentOfJoin(a: string, b: string)
    requires |a| == 0 || EndsWith(a, '/')
    ensures '/' !in b ==> LastSegment(a + b) == b
    decreases |b|
  {
    if '/' in b {
    } else if |b| == 0 {
      assert a + b == a;
    } else {
      var b' := b[..|b| - 1];
      assert (a + b)[..|a + b| - 1] == a + b';
      LastSegmentOfJoin(a, b');
    }
  }

  /** `pathlib.PurePosixPath(p).name`: the last component, ignoring empty and `.` components. */
  function PureName(p: string): (r: string)
    ensures '/' !in r && r != "."
    ensures '/' !in p && p != "." ==> r == p
    decreases |p|
  {
    var seg := LastSegment(p);
    if seg != "" && seg != "." then seg
    else if |seg| == |p| then ""
    else PureName(p[..|p| - |seg| - 1])
  }

  /** Paths with no component but empty and `.` ones have the empty file name. */
  lemma PureNameOfNothing()
    ensures PureName("") == "" && PureName(".") == "" && PureName("/") == ""
  {
    assert LastSegment("/") == "";
    assert "/"[..0] == "";
    assert LastSegment(".") == LastSegment("") + ".";
  }

  /** A `/`-free name that is not `.`, appended as a last component, is the file name. */
  lemma PureNameOfChild(d: string, n: string)
    requires n != "" && n != "." && '/' !in n
    ensures PureName(d + "/" + n) == n
  {
    LastSegmentOfJoin(d + "/", n);
  }

  /** An empty last component (a trailing `/`) is skipped. */
  lemma PureNameSkipsEmpty(p: string)
    ensures PureName(p + "/") == PureName(p)
  {
    assert LastSegment(p + "/") == "";
    assert (p + "/")[..|p|] == p;
  }

  /** A `.` last component is skipped. */
  lemma PureNameSkipsDot(p: string)
    ensures PureName(p + "/.") == PureName(p)
  {
    var q := p + "/.";
    assert q == (p + "/") + ".";
    LastSegmentOfJoin(p + "/", ".");
    assert LastSegment(q) == "." && |q| - 1 - 1 == |p|;
    assert q[..|p|] == p;
  }

  /** `sep.join(parts)` */
  function JoinWith(sep: string, parts: seq<string>): (r: string)
    ensures |parts| == 0 ==> r == ""
    ensures |parts| == 1 ==> r == parts[0]
    decreases |parts|
  {
    if |parts| == 0 then ""
    else if |parts| == 1 then parts[0]
    else parts[0] + sep + JoinWith(sep, parts[1..])
  }

  /** Joining two lists of parts is joining each and putting the separator between the results. */
  lemma {:induction false} JoinWithAppend(sep: string, a: seq<string>, b: seq<string>)
    requires |a| > 0 && |b| > 0
    ensures JoinWith(sep, a + b) == JoinWith(sep, a) + sep + JoinWith(sep, b)
    decreases |a|
  {
    assert (a + b)[0] == a[0];
    if |a| == 1 {
      assert (a + b)[1..] == b;
    } else {
      assert (a + b)[1..] == a[1..] + b;
      JoinWithAppend(sep, a[1..], b);
    }
  }

  /** Two parts are joined with exactly one separator between them. */
  lemma JoinWithTwo(sep: string, x: string, y: string)
    ensures JoinWith(sep, [x, y]) == x + sep + y
  {
    assert [x, y][1..] == [y];
  }

  /** A join of several parts starts with the first part and the separator and ends with the last part. */
  lemma {:induction false} JoinWithEnds(sep: string, parts: seq<string>)
    requires |parts| > 0
    ensures var r := JoinWith(sep, parts);
      && |r| >= |parts[|parts| - 1]| && r[|r| - |parts[|parts| - 1]|..] == parts[|parts| - 1]
      && (|parts| > 1 ==> |r| >= |parts[0]| + |sep| && r[..|parts[0]| + |sep|] == parts[0] + sep)
    decreases |parts|
  {
    if |parts| > 1 {
      var last := parts[|parts| - 1];
      var tail := JoinWith(sep, parts[1..]);
      JoinWithEnds(sep, parts[1..]);
      assert parts[1..][|parts[1..]| - 1] == last;
      var r := parts[0] + sep + tail;
      assert JoinWith(sep, parts) == r;
      assert r[..|parts[0]| + |sep|] == parts[0] + sep;
      assert r[|r| - |last|..] == tail[|tail| - |last|..];
    }
  }

  /** The file name only uses characters of the path. */
  lemma {:induction false} PureNameChars(p: string, c: char)
    requires c !in p
    ensures c !in PureName(p)
    decreases |p|
  {
    var seg := LastSegment(p);
    assert seg == p[|p| - |seg|..];
    if !(seg != "" && seg != ".") && |seg| != |p| {
      var q := p[..|p| - |seg| - 1];
      assert forall i :: 0 <= i < |q| ==> q[i] == p[i];
      PureNameChars(q, c);
    }
  }
}

=== FILE: types.dfy ===
/** Failure-carrying wrappers used throughout the model in place of Python's `None` and exceptions. */
module Types {

  /** A value that may be missing (Python `None`). */
  datatype Option<+T> = None | Some(value: T)

  /** A computation that either produced a value or stopped with an error (a raised exception). */
  datatype Result<+T, +E> = Ok(value: T) | Err(error: E)
}
